=== FILE: README.md ===
# go-rflutil in Dafny

A model of the reflection helpers of `rflutil`, a Go library that reads and
writes maps, slices, arrays and struct fields through `reflect.Value`
handles, reconciles a value with a requested type, flattens structs into maps
under the control of struct tags, and parses struct tags.

Go's `reflect` is replaced by an explicit value model (`values.dfy`):

- a `Type` and a `Value` datatype (pointer, interface, scalar, slice, array,
  map, struct, and the invalid value); every type and value carries its
  type's name, `""` for a type literal such as `[]int`, so a defined type
  such as `type S []int` is a different type;
- `AssignTo`, which stores a value into a slot of a given type as
  `Value.assignTo` does: an interface slot boxes it, any other slot re-types
  it to the slot's type;
- a `Handle`, which is a value plus whether it is addressable;
- the six sentinel errors as one `Error` datatype;
- a `Catalog` of the type relations the library consults (assignability,
  convertibility with its conversion, and interface satisfaction), left
  abstract.

Pointers and interfaces own their payload. A write through a handle (the
`SetMapIndex`, `Index(i).Set` and `Field(i).Set` calls) is a method on a
`Cell` holding the caller's value: it replaces what the handle unwraps to and
keeps every pointer and interface layer in front of it (`Util.SetRoot`).
Each such method is proved equal to a specification function
(`MapSetSpec`, `SliceSetSpec`, `StructSetFieldSpec`, `MapDeleteSpec`), and
the frame and round-trip properties are lemmas about those functions.

Modules follow the Go files:

| module | file | what it holds |
|---|---|---|
| `Util` | util.go | `isKindIn`, `indirectValueTilRoot` |
| `Rflutil` | rflutil.go | `ValueAs` |
| `Maps` | map.go | `MapGet`, `MapSet`, `MapDelete` |
| `Slices` | slice.go | `SliceGet`, `SliceSet`, `SliceAppend` |
| `Fields` | struct.go | `structGetField` (exact or case-folded field lookup) |
| `Structs` | struct.go | `StructGetField`, `StructSetField`, the keyFunc `StructToMap` (named `StructToMapKeyFunc`) |
| `StructMaps` | struct_to_map.go | `StructToMap`, `structToMapEx`, `parseCustomTag`, `structFieldDetail` |
| `Tags` | tag.go | `Tag` and its accessors, `ParseTag`, `ParseTagOf`, `ParseTagsOf` |

Two functions are named `StructToMap`: the keyFunc version in struct.go and
the tag-driven flattener in struct_to_map.go. The flattener keeps the name
`StructMaps.StructToMap`, and the struct.go version is
`Structs.StructToMapKeyFunc`.

Where the code can panic on the inputs the model represents, the model states
the inputs that avoid the panic as a precondition, each condition required
only on the path that reaches the panicking call (`MapSetDefined`, `SliceSetDefined`,
`SliceAppendDefined`, `StructSetFieldDefined`, `ParseTagsOfDefined`,
`KeyUsable`, `ValueAsDefined`). `v.Type()` on an invalid handle counts as
one of these panics. Panics that depend on what the model does not represent,
such as `reflect`'s read-only flag, are listed under "Left out".

The map accessors check that the map's key type is assignable to the key
argument's type. `MapSet` makes the same reversed check for the element type.
This is the opposite direction of the usual rule ("the key is assignable to
the map's key type"). The model follows the code as written (`KeyAccepted`
and `MapSetSpec`). Where the reversed check lets a key through that
`MapIndex` or `SetMapIndex` cannot convert, Go panics, so the forward
direction is also part of the precondition, on the paths that reach those calls.

## Model

| member | source | states |
|---|---|---|
| Values.AssignToRetypes | map.go:60 | a value stored into an interface slot is handed back as itself, into any other slot as itself re-typed to the slot's type, with that dynamic type |
| Util.IsKindIn | util.go:5-12 | the result is true iff the kind occurs in the list |
| Util.Root | util.go:14-27 | unwrapping ends at an invalid value or at one that is neither a pointer nor an interface, and the result is the input or a part of it |
| Util.IndirectValueTilRoot | util.go:14-27 | the layer-by-layer loop ends at exactly `Root` of its input |
| Util.RootValueIgnoresAddressable | util.go:14-27 | where unwrapping ends does not depend on the starting addressability |
| Util.RootOfDirect | util.go:16-25 | a value that is neither a pointer nor an interface is returned unchanged |
| Util.RootOfNilPointer | util.go:18-21 | a nil pointer unwraps to the invalid value |
| Util.RootIdempotent | util.go:14-27 | unwrapping twice equals unwrapping once |
| Util.RootOfDoublePointer | util.go:15-23 | `**T` unwraps to the `T` value, which is then addressable |
| Util.RootOfSetRoot | util.go:14-27 | after a write through a handle, unwrapping reaches the written value with the addressability it had before |
| Util.SetRootOfRoot | util.go:14-27 | writing back what a handle unwraps to leaves the value unchanged |
| Util.SetRootTwice | util.go:14-27 | a second write through the same handle replaces the first |
| Rflutil.Reconcile | rflutil.go:8-33 | on the inputs that do not panic, the only error is TypeUnmatched |
| Rflutil.ValueAs | rflutil.go:8-33 | never for an interface target, which panics. The loop computes `Reconcile`. Assignable returns the value the input hands out, whose dynamic type is then exactly T. Otherwise convertible returns the conversion. Only an interface is unwrapped: any other value, a pointer included, that is neither assignable nor convertible gives TypeUnmatched. The only error is TypeUnmatched |
| Rflutil.ValueAsDefinedDirect | rflutil.go:10-15 | for a value that is not an interface, `ValueAs` avoids the panic iff assignability to T implies the type is T itself |
| Rflutil.ValueAsNamedSliceExcluded | rflutil.go:14-15 | a `[]e` asked for as a defined slice type `S` with elements `e` is assignable but does not assert to `S`, so the call panics and is excluded |
| Rflutil.ReconcileUnwrapsOneLayer | rflutil.go:21-27 | when neither relation holds for an interface, the input is safe iff its payload is, and the answer is that of its payload |
| Rflutil.ReconcileResultOrigin | rflutil.go:13-32 | a success is either what a value behind interface layers of the input hands out, and then of type exactly T, or the conversion of such a value |
| Maps.MapGet | map.go:9-33 | TypeInvalid iff the input is not a map. A key that fails the check gives TypeUnmatched. NotFound iff the key passes the check and, re-typed to the map's key type as `MapIndex` converts it, is absent. A success is the value stored under that re-typed key, unboxed, and its dynamic type asserts to the requested one |
| Maps.MapGetPresent | map.go:24-32 | for a present key: the stored value, unboxed, iff it is non-nil and its dynamic type asserts to the requested one, else TypeUnmatched |
| Maps.MapSet | map.go:36-62 | the cell holds `MapSetSpec`'s value on success and is unchanged on error |
| Maps.MapDelete | map.go:65-80 | the cell holds `MapDeleteSpec`'s value on success and is unchanged on error |
| Maps.MapSetFrame | map.go:60 | a successful set binds the key to the stored value (the zero interface for nil) and keeps every other entry and both types |
| Maps.MapGetAfterSet | map.go:60 | reading the key back yields, for an interface element type, the written value when its type asserts to the requested one; for any other element type, the written value re-typed to the element type when that type asserts to the requested one; else TypeUnmatched |
| Maps.MapSetErrors | map.go:37-58 | a non-map input gives TypeInvalid; a rejected key or an unassignable value gives TypeUnmatched; on a map, the set succeeds iff it reaches `SetMapIndex` |
| Maps.MapSetNilMap | map.go:49-61 | on a nil map every path to `SetMapIndex` panics, so a set that returns reports TypeUnmatched |
| Maps.MapDeleteFrame | map.go:77-79 | a successful delete removes exactly the key |
| Maps.MapDeleteAbsent | map.go:77-79 | deleting a key that is absent once re-typed to the map's key type succeeds and changes nothing |
| Maps.MapDeleteIdempotent | map.go:65-80 | a second delete changes nothing more, and a later get reports NotFound |
| Slices.SliceGet | slice.go:9-35 | TypeInvalid iff the input is not a slice or array. IndexOutOfRange iff the index is outside `[0, len)`. A success implies the index is in range |
| Slices.SliceSet | slice.go:38-63 | the cell holds `SliceSetSpec`'s value on success and is unchanged on error |
| Slices.SliceAppend | slice.go:66-85 | TypeInvalid iff the input is not a slice, arrays included. A success is the input's elements followed by one more. The call panics unless a slice that reaches an append has exactly the unnamed type `[]T` |
| Slices.IndexCheckedFirst | slice.go:16-18 | an out-of-range index gives IndexOutOfRange for get and set, whatever the value or type |
| Slices.SliceSetFrame | slice.go:61 | a successful set writes element `i` and keeps the type, the length and every other element |
| Slices.SliceGetAfterSet | slice.go:61 | reading element `i` back yields, for an interface element type, the written value when its type asserts to the requested one; otherwise the written value re-typed to the element type when that type asserts to the requested one |
| Slices.SliceSetNilOrUnassignable | slice.go:49-60 | nil is stored iff the element type is an interface; an unassignable value gives TypeUnmatched |
| Slices.SliceGetNilInterface | slice.go:19-27 | a nil-interface element gives the nil interface of T when T is an interface, else TypeUnmatched |
| Slices.SliceGetAsserts | slice.go:29-33 | a non-nil element is returned, unboxed, iff its dynamic type asserts to T |
| Slices.SliceAppendLast | slice.go:74-84 | the appended element is the value as stored into a `T` slot (boxed for an interface `T`, re-typed to `T` otherwise; the zero interface for nil). Nil is accepted iff the element type is an interface, other values iff assignable |
| Fields.FieldByName | struct.go:75-81 | the first field with exactly that name; none iff no field has it |
| Fields.FoldedLookupUnique | struct.go:83-90 | the case-insensitive lookup finds field `i` iff `i` is the only field whose lower-cased name equals the lower-cased query |
| Fields.AmbiguousIsNotFound | struct.go:83-90 | two fields matching after folding give no field |
| Fields.CaseSensitiveRefines | struct.go:74-91 | where the exact lookup finds a field, the folded one finds the same field or none |
| Structs.StructGetField | struct.go:13-39 | TypeInvalid iff not a struct; then NotFound iff the lookup fails; ValueUnaddressable only without an address; a success is the selected field's value, unboxed, from an accessible field whose non-nil value asserts to the requested type |
| Structs.StructGetAsserts | struct.go:33-38 | for a field that is found and accessible: its value, unboxed, iff the value is non-nil and asserts to the requested type, else TypeUnmatched |
| Structs.StructSetField | struct.go:42-72 | the cell holds `StructSetFieldSpec`'s value on success and is unchanged on error |
| Structs.AccessNeedsAddress | struct.go:25-62 | an unexported field is readable and writable iff addressable. Without an address, a set fails with ValueUnaddressable (unexported) or ValueUnsettable (exported). With one, it succeeds iff the value is assignable |
| Structs.StructSetFieldFrame | struct.go:70 | a successful set writes the selected field and keeps the struct's name, declarations and other fields |
| Structs.StructGetAfterSet | struct.go:70 | reading the field back yields, for an interface field, the written value when its type asserts to the requested one; otherwise the written value re-typed to the field's type when that type asserts to the requested one |
| Structs.StructToMapKeyFunc | struct.go:96-163 | the loop computes `KeyFuncMap`, the field-by-field map, including its early ValueUnaddressable return |
| Structs.KeyFuncMapFails | struct.go:153-157 | the conversion fails iff some field fails, and only with ValueUnaddressable |
| Structs.KeyFuncMapKeys | struct.go:125-161 | every key comes from a field with that key and value, and every kept field's key is present |
| Structs.NilKeyFuncExportedOnly | struct.go:142-147 | with a nil keyFunc, the map holds exactly the exported fields under their names, and the conversion cannot fail |
| Structs.KeyFuncDropsAndFails | struct.go:131-157 | a `""` key or a dropped JSON name adds nothing; a kept unexported field without an address fails the whole conversion |
| Structs.JSONNameText | struct.go:106-121 | read off the tag text: no `json` tag, or a name of `-` or `""`, or an `omitempty` segment on an empty value give no name; otherwise the text before the first comma |
| Structs.JSONTagKeys | struct.go:106-147 | with JSON names and a nil keyFunc the conversion cannot fail, and the map holds exactly the exported fields that their `json` tag text keeps, each under that tag's name with its value |
| StructMaps.Extend | struct_to_map.go:73 | the merge keeps every existing entry and adds only keys that were missing |
| StructMaps.DetailsOf | struct_to_map.go:34-37 | TypeInvalid iff the input does not unwrap to a struct |
| StructMaps.StructToMapEx | struct_to_map.go:29-98 | the recursive walk computes `DetailsOf` |
| StructMaps.StructToMap | struct_to_map.go:10-20 | TypeInvalid iff not a struct; otherwise the output is a projection: its keys are the details' output keys, each holding the value of a detail with that key |
| StructMaps.ProjectionSize | struct_to_map.go:15-19 | the output has no more entries than there are details |
| StructMaps.ExtendKeeps | struct_to_map.go:73 | extending keeps "filed under the source name with a non-empty output key" and "output key equals the key" |
| StructMaps.DetailsNamedBySource | struct_to_map.go:88-95 | every detail is filed under its field's source name and has a non-empty output key |
| StructMaps.DetailsGrow | struct_to_map.go:59-96 | a key, once present, stays through later fields |
| StructMaps.DetailKeys | struct_to_map.go:59-96 | the keys are exactly the names of fields kept as plain entries plus the keys of flattened embedded structs |
| StructMaps.PlainFieldWins | struct_to_map.go:63-95 | a field kept as a plain entry owns its name whatever flattened structs hold, so the outer field wins, and an embedded nil pointer or an unflattened embedded struct is one entry |
| StructMaps.FlattenedKeysPresent | struct_to_map.go:63-75 | every key of an opened embedded struct appears in the outer details |
| StructMaps.EmptyTagKeysAreNames | struct_to_map.go:81-95 | with the empty tag, every output key is the field's name |
| StructMaps.ProjectionOfSelfKeyed | struct_to_map.go:15-19 | when each output key is its detail's key, the output is exactly the details' values |
| StructMaps.EmptyTagExportedFields | struct_to_map.go:78-95 | with the empty tag and no flattening, every exported field maps from its name to its value, and nothing else appears |
| StructMaps.OutKeyText | struct_to_map.go:39-54 | read off the tag text: a field without the tag keeps its name; a name of `-` or `""`, or an `omitempty` segment on an empty value, drop it; otherwise the text before the first comma is the key |
| StructMaps.CustomTagDetails | struct_to_map.go:78-95 | for an exported, unflattened field under a custom tag: no tag files it under its name as output key; a keeping tag gives the tag's name as output key with the field's value; a dropping tag (without flattening) leaves no detail |
| Tags.IndexOf | tag.go:45 | the first occurrence of the separator, or -1 when there is none |
| Tags.Split | tag.go:45 | at least one piece; the first is the text before the first separator, or the whole value |
| Tags.JoinSplit | tag.go:45 | joining the pieces with the separator gives the tag value back |
| Tags.JoinPieces | tag.go:45 | the same for the empty separator, which cuts a non-empty value into characters |
| Tags.SplitPiecesFree | tag.go:45 | no piece contains the separator |
| Tags.KeyValueSplitsAtFirstEquals | tag.go:54-59 | a segment without `=` is a key mapped to `""`; otherwise it splits at the first `=`, and key, `=` and value give it back |
| Tags.AttrsPresent | tag.go:53-59 | an attribute is present iff some segment has its key |
| Tags.AttrsLastValue | tag.go:53-59 | the attribute's value comes from the last segment with its key |
| Tags.AttrsLastWins | tag.go:53-59 | presence and last-wins together |
| Tags.AttrAccessorsAgree | tag.go:17-32 | `HasAttr` is `GetAttr`'s flag. `GetAttrDefault` returns the stored value when present, even `""`, and the default only when absent |
| Tags.ParsedTag | tag.go:35-62 | NotFound iff the field has no such tag. The tag records the field name, and it is ignored iff its name is `-` |
| Tags.ParseTag | tag.go:35-62 | the split-then-attributes loop computes `ParsedTag` |
| Tags.TagNameBeforeDelimiter | tag.go:45-50 | the name is the text before the first separator, or the whole value when there is none, and then there are no attributes |
| Tags.TagWithEmptyDelimiter | tag.go:45-51 | with the empty separator the name is the first character; an empty value gives an empty name and no attributes |
| Tags.ParsedAttrLastWins | tag.go:53-59 | `GetAttr` on a parsed tag finds the value of the last segment with the key |
| Tags.ParsedTagText | tag.go:45-59 | with the comma separator, the name is the text before the first comma, it is ignored iff that is `-`, and an attribute is present iff a later segment has its key |
| Tags.ParsedTagOmits | tag.go:45-59 | a parsed tag is ignored, has an empty name, or says `omitempty` for an empty value exactly when its text says so |
| Tags.ParseTagOf | tag.go:65-77 | TypeInvalid iff not a struct; on a struct, NotFound iff no declared field has the name or that field lacks the tag |
| Tags.ParsedTagOfField | tag.go:71-76 | on a struct, the result is `ParseTag` of the first declared field with that name |
| Tags.ParseTagsOf | tag.go:80-100 | TypeInvalid iff not a struct; on a struct, always a success holding the tags collected field by field |
| Tags.TagsInFieldOrder | tag.go:88-98 | the tags are those of exactly the fields carrying the tag, in field order |

## Left out

- Go's reflection and type system: assignability, convertibility, the conversion itself and interface satisfaction are abstract relations. Nothing is assumed about them, so a conversion that truncates a float is not modelled.
- Rflutil.ValueAs: `Catalog.convert` is taken to be total. `reflect.Value.Convert` panics on a slice too short for the array type it is converted to, and the model returns the conversion there.
- Rflutil.ValueAs: values carry no read-only flag, so the panic of `v.Interface()` on a value obtained from an unexported field is not modelled.
- Read-only values in every accessor: handles carry no read-only flag, so every input is taken to have been obtained without passing through an unexported field. For a value that was, Go panics in `Interface()` (map.go:27, slice.go:19, struct.go:33, struct.go:144, struct.go:160) and in the `mustBeExported` check of `SetMapIndex` and `Set` (map.go:51, 60, 78, slice.go:52, 61, struct.go:70). The model returns a result there.
- Re-typing on assignment: a value stored into a non-interface slot takes the slot's type and keeps its payload (`Values.Retype`). The read-back lemmas rely on a `Coherent` catalog, one that lets a value into a distinct non-interface type only when the two share their shape, as Go's identical-underlying-type rule ensures.
- `reflect.StructTag.Lookup` and its `key:"value"` grammar: a field carries a map from tag key to tag value.
- `IsZero`: `Values.IsEmptyValue` treats these as empty: nil pointers, interfaces, slices and maps; scalars whose abstract payload is 0; and arrays and structs whose parts are all empty.
- Memory: pointers and interfaces own their payload, so aliasing between handles, slice capacity and shared backing arrays are not modelled. A write through a handle is a write into the `Cell` that holds the caller's value.
- `reflect.NewAt(…, unsafe.Pointer(…))` (struct.go:30, 58, 158) is reduced to "an addressable unexported field is accessible".
- Promoted fields: `StructGetField` and `StructSetField` use `sf.Index[0]`, which is only right for fields a struct declares itself, so only those are looked up.
- Tags.ParseTagOf: `reflect.Type.FieldByName` also finds fields promoted from embedded structs. The model looks up declared fields only, so for a promoted name it reports NotFound where Go parses the promoted field's tag.
- Fields.FoldedLookupUnique: `strings.ToLower` is ASCII lower-casing here, so the model says nothing about Unicode case folding.
- StructMaps.StructToMap: when two details share an output key, Go's map iteration order picks the winner. The contract allows either, so it is weaker than any one run.
- StructMaps.Extend: `mapExtend` is not part of this model. Its behaviour is taken to be "keep the entries `dst` already has".
- StructMaps.StructToMapEx and Structs.StructToMapKeyFunc: the error branches after `ParseTag` and after the recursive call cannot be taken, because `ParseTag` reports only NotFound and the recursion gets a struct. They are left out of the code.
- Panicking paths become preconditions:
  - `v.Type()` on an invalid input;
  - a nil map written to;
  - a nil value for a non-interface map element;
  - a key or value that passes the reversed check but cannot be converted;
  - a non-addressable array element set;
  - `SliceAppend`'s forced `.([]T)`, which fails unless the slice's type is exactly the unnamed `[]T` (a defined type such as `type S []int` fails it);
  - `ParseTagsOf` reading the fields of the value it was given rather than of the unwrapped one;
  - `ValueAs` with an interface target, where `reflect.TypeOf` of the zero value is nil and `AssignableTo(nil)` panics;
  - `ValueAs`'s forced `.(T)` on the assignable path when the value handed out does not have type exactly T, such as a `[]int` asked for as `type S []int` (`Rflutil.ValueAsNamedSliceExcluded`), or a nil interface.
- `SliceLen`, `SliceGetAll`, `SliceAs`, `MapLen`, `MapKeys` and `MapEntries` are not part of this model.
- The text of error messages is not modelled, and neither are the wrapping of sentinels with `fmt.Errorf` and the test harness.

=== FILE: fields.dfy ===
/** Field lookup by name, case-sensitive or not (`structGetField` in struct.go),
    over the fields a struct declares itself. */
module Fields {
  import opened Values

  /** ASCII lower-casing of one character. */
  function LowerChar(ch: char): char {
    if 'A' <= ch <= 'Z' then (ch as int + 32) as char else ch
  }

  /** ASCII lower-casing, standing in for `strings.ToLower`. */
  function Lower(s: string): string {
    if s == [] then [] else [LowerChar(s[0])] + Lower(s[1..])
  }

  /** The indices below `n` that satisfy `p`, in increasing order. */
  function IndicesWhere(n: nat, p: nat -> bool): (r: seq<nat>)
    ensures forall j :: 0 <= j < |r| ==> r[j] < n && p(r[j])
    ensures forall j, k :: 0 <= j < k < |r| ==> r[j] < r[k]
  {
    if n == 0 then [] else IndicesWhere(n - 1, p) + (if p(n - 1) then [n - 1] else [])
  }

  /** No index is missed: every index below `n` that satisfies `p` is listed. */
  lemma {:induction false} IndicesWhereComplete(n: nat, p: nat -> bool, i: nat)
    requires i < n && p(i)
    ensures i in IndicesWhere(n, p)
  {
    if i < n - 1 {
      IndicesWhereComplete(n - 1, p, i);
    }
  }

  /** The index of the field named exactly `name` (`Type.FieldByName`). */
  function FieldByName(fs: seq<Field>, name: string): (r: Option<nat>)
    ensures r.Some? ==> r.value < |fs| && fs[r.value].name == name
    ensures r.Some? ==> forall j :: 0 <= j < r.value ==> fs[j].name != name
    ensures r.None? <==> forall j :: 0 <= j < |fs| ==> fs[j].name != name
  {
    if |fs| == 0 then None
    else if fs[0].name == name then Some(0)
    else var r := FieldByName(fs[1..], name); if r.None? then None else Some(r.value + 1)
  }

  /** Whether field `f` matches `name` once both are lower-cased. */
  predicate FoldsTo(f: Field, name: string) {
    Lower(f.name) == Lower(name)
  }

  /** The test `FieldByNameFunc` applies to field `i` in the case-insensitive lookup. */
  function FoldMatch(fs: seq<Field>, name: string): nat -> bool {
    (i: nat) => i < |fs| && FoldsTo(fs[i], name)
  }

  /** The unique field whose lower-cased name is the lower-cased `name`; two
      matches annihilate each other, as `FieldByNameFunc` does. */
  function FieldByFoldedName(fs: seq<Field>, name: string): Option<nat> {
    var ms := IndicesWhere(|fs|, FoldMatch(fs, name));
    if |ms| == 1 then Some(ms[0]) else None
  }

  /** `structGetField`: dispatches on `caseSensitive`. */
  function Lookup(fs: seq<Field>, name: string, caseSensitive: bool): Option<nat> {
    if caseSensitive then FieldByName(fs, name) else FieldByFoldedName(fs, name)
  }

  /** When `p` holds for `i` alone, the indices below `n` where it holds are
      `[i]`, or none when `i` is not below `n`. */
  lemma {:induction false} OnlyIndexWhere(n: nat, p: nat -> bool, i: nat)
    requires p(i)
    requires forall j: nat :: j < n && j != i ==> !p(j)
    ensures IndicesWhere(n, p) == if i < n then [i] else []
  {
    if n > 0 {
      OnlyIndexWhere(n - 1, p, i);
      if n - 1 != i {
        assert !p(n - 1);
      }
    }
  }

  /** When the indices where `p` holds below `n` are `[i]`, `p` holds there for `i` alone. */
  lemma IndexWhereOnly(n: nat, p: nat -> bool, i: nat)
    requires IndicesWhere(n, p) == [i]
    ensures i < n && p(i)
    ensures forall j: nat :: j < n && j != i ==> !p(j)
  {
    var ms := IndicesWhere(n, p);
    assert ms[0] < n && p(ms[0]);
    forall j: nat | j < n && j != i ensures !p(j) {
      if p(j) {
        IndicesWhereComplete(n, p, j);
      }
    }
  }

  /** The case-insensitive lookup finds field `i` exactly when `i` is the only
      field whose name folds to the folded query. */
  lemma FoldedLookupUnique(fs: seq<Field>, name: string, i: nat)
    ensures FieldByFoldedName(fs, name) == Some(i) <==>
      i < |fs| && FoldsTo(fs[i], name) &&
      forall j :: 0 <= j < |fs| && j != i ==> !FoldsTo(fs[j], name)
  {
    var p := FoldMatch(fs, name);
    var ms := IndicesWhere(|fs|, p);
    assert FieldByFoldedName(fs, name) == Some(i) <==> ms == [i] by {
      if |ms| == 1 { assert ms == [ms[0]]; }
    }
    forall j: nat ensures p(j) == (j < |fs| && FoldsTo(fs[j], name)) {
    }
    if ms == [i] {
      IndexWhereOnly(|fs|, p, i);
    } else if i < |fs| && p(i) && forall j: nat :: j < |fs| && j != i ==> !p(j) {
      OnlyIndexWhere(|fs|, p, i);
    }
  }

  /** An ambiguous case-insensitive query is treated exactly like a missing field. */
  lemma {:induction false} AmbiguousIsNotFound(fs: seq<Field>, name: string, i: nat, j: nat)
    requires i < j < |fs|
    requires FoldsTo(fs[i], name) && FoldsTo(fs[j], name)
    ensures Lookup(fs, name, false) == None
  {
    if Lookup(fs, name, false).Some? {
      var k := Lookup(fs, name, false).value;
      FoldedLookupUnique(fs, name, k);
    }
  }

  /** Case-sensitive lookup is stricter: where it finds a field, the
      case-insensitive lookup finds the same one or none (when another field
      differs from it only in case). */
  lemma CaseSensitiveRefines(fs: seq<Field>, name: string)
    requires FieldByName(fs, name).Some?
    ensures FieldByFoldedName(fs, name) == FieldByName(fs, name) || FieldByFoldedName(fs, name).None?
  {
    var i := FieldByName(fs, name).value;
    var f := FieldByFoldedName(fs, name);
    if f.Some? && f.value != i {
      FoldedLookupUnique(fs, name, f.value);
      assert false;
    }
  }
}

=== FILE: maps.dfy ===
/** Map accessors `MapGet`, `MapSet` and `MapDelete` (map.go). */
module Maps {
  import opened Values
  import opened Util

  /** The entries of a map value; a nil map reads as empty. */
  function Entries(m: Value): map<Value, Value>
    requires m.MapVal?
  {
    if m.entries.Some? then m.entries.value else map[]
  }

  /** The key check as the library writes it: the map's key type must be
      assignable to the key argument's type (the reverse of the usual direction). */
  predicate KeyAccepted(c: Catalog, m: Value, key: Value)
    requires m.MapVal? && key != Invalid
  {
    c.assignable(m.key, TypeOf(key))
  }

  /** What every map accessor needs to run without panicking: a valid input
      (the TypeInvalid message formats its type) and, on a map, a valid key
      (its type is inspected); `MapIndex` and `SetMapIndex` also convert the key
      to the map's key type and panic when it is not assignable. */
  predicate KeyUsable(c: Catalog, v: Value, key: Value)
  {
    v != Invalid &&
    var m := RootOf(v);
    (m.MapVal? ==> key != Invalid && (KeyAccepted(c, m, key) ==> c.assignable(TypeOf(key), m.key)))
  }

  /** `MapGet[V]`: looks up `key` and asserts the stored value to `t`. */
  function MapGet(c: Catalog, v: Value, key: Value, t: Type): (r: Result<Value>)
    requires KeyUsable(c, v, key)
    ensures r == Err(TypeInvalid) <==> !RootOf(v).MapVal?
    ensures r == Err(NotFound) <==>
      RootOf(v).MapVal? && KeyAccepted(c, RootOf(v), key) && AssignTo(key, RootOf(v).key) !in Entries(RootOf(v))
    ensures RootOf(v).MapVal? && !KeyAccepted(c, RootOf(v), key) ==> r == Err(TypeUnmatched)
    ensures r.Ok? ==> var m := RootOf(v); var k := AssignTo(key, m.key);
      && k in Entries(m) && Entries(m)[k] != Invalid
      && r.value == Unbox(Entries(m)[k]) && AssertsTo(c, DynType(Entries(m)[k]), t)
  {
    var m := RootOf(v);
    if !m.MapVal? then Err(TypeInvalid)
    else if !KeyAccepted(c, m, key) then Err(TypeUnmatched)
    else
      var k := AssignTo(key, m.key);
      if k !in Entries(m) then Err(NotFound)
      else
        var x := Entries(m)[k];
        if x != Invalid && AssertsTo(c, DynType(x), t) then Ok(Unbox(x))
        else Err(TypeUnmatched)
  }

  /** `MapSet` reaches `SetMapIndex`: the key passed its check, and the value is
      nil or passed the (reversed) element check. */
  predicate MapSetWrites(c: Catalog, m: Value, key: Value, x: Value)
    requires m.MapVal? && key != Invalid
  {
    KeyAccepted(c, m, key) && (x == Invalid || c.assignable(m.elem, TypeOf(x)))
  }

  /** The panicking paths of `MapSet`: the type of an invalid input, or on a
      map of an invalid key, a nil value for a map whose elements are not
      interfaces (its type is asked for), and, only where `SetMapIndex` is
      reached, a nil map, a key not assignable to the key type or a value not
      assignable to the element type. */
  predicate MapSetDefined(c: Catalog, v: Value, key: Value, x: Value)
  {
    v != Invalid &&
    var m := RootOf(v);
    (m.MapVal? ==> key != Invalid) &&
    (m.MapVal? && KeyAccepted(c, m, key) ==>
       && (x == Invalid ==> m.elem.InterfaceType?)
       && (MapSetWrites(c, m, key, x) ==>
             && m.entries.Some?
             && c.assignable(TypeOf(key), m.key)
             && (x != Invalid ==> c.assignable(TypeOf(x), m.elem))))
  }

  /** The map `m` with `key` bound to the already converted `stored`. */
  function Put(m: Value, key: Value, stored: Value): (r: Value)
    requires m.MapVal? && m.entries.Some?
    ensures r.MapVal? && r.key == m.key && r.elem == m.elem && r.entries.Some?
  {
    m.(entries := Some(m.entries.value[AssignTo(key, m.key) := stored]))
  }

  /** The value the handle designates after `MapSet`, or the error it reports. */
  function MapSetSpec(c: Catalog, v: Value, key: Value, x: Value): Result<Value>
    requires MapSetDefined(c, v, key, x)
  {
    var m := RootOf(v);
    if !m.MapVal? then Err(TypeInvalid)
    else if !KeyAccepted(c, m, key) then Err(TypeUnmatched)
    else if x == Invalid then Ok(SetRoot(v, Put(m, key, IfaceVal(m.elem.name, None))))
    else if !c.assignable(m.elem, TypeOf(x)) then Err(TypeUnmatched)
    else Ok(SetRoot(v, Put(m, key, AssignTo(x, m.elem))))
  }

  /** The value the handle designates after `MapDelete`, or the error it reports. */
  function MapDeleteSpec(c: Catalog, v: Value, key: Value): Result<Value>
    requires KeyUsable(c, v, key)
  {
    var m := RootOf(v);
    if !m.MapVal? then Err(TypeInvalid)
    else if !KeyAccepted(c, m, key) then Err(TypeUnmatched)
    else if m.entries.None? then Ok(v)
    else Ok(SetRoot(v, m.(entries := Some(m.entries.value - {AssignTo(key, m.key)}))))
  }

  /** `MapSet`: checks kind, key type and value type, then writes the entry in place. */
  method MapSet(c: Catalog, cell: Cell, key: Value, x: Value) returns (err: Option<Error>)
    requires MapSetDefined(c, cell.val, key, x)
    modifies cell
    ensures Applied(MapSetSpec(c, old(cell.val), key, x), err, old(cell.val), cell.val)
  {
    var h := IndirectValueTilRoot(Handle(cell.val, cell.addressable));
    RootValueIgnoresAddressable(cell.val, cell.addressable);
    var m := h.val;
    if !m.MapVal? {
      return Some(TypeInvalid);
    }
    if !c.assignable(m.key, TypeOf(key)) {
      return Some(TypeUnmatched);
    }
    if x == Invalid {
      // only an interface element type gets here; Go stores its zero value
      cell.val := SetRoot(cell.val, Put(m, key, IfaceVal(m.elem.name, None)));
      return None;
    }
    if !c.assignable(m.elem, TypeOf(x)) {
      return Some(TypeUnmatched);
    }
    cell.val := SetRoot(cell.val, Put(m, key, AssignTo(x, m.elem)));
    return None;
  }

  /** `MapDelete`: checks kind and key type, then removes the entry in place. */
  method MapDelete(c: Catalog, cell: Cell, key: Value) returns (err: Option<Error>)
    requires KeyUsable(c, cell.val, key)
    modifies cell
    ensures Applied(MapDeleteSpec(c, old(cell.val), key), err, old(cell.val), cell.val)
  {
    var h := IndirectValueTilRoot(Handle(cell.val, cell.addressable));
    RootValueIgnoresAddressable(cell.val, cell.addressable);
    var m := h.val;
    if !m.MapVal? {
      return Some(TypeInvalid);
    }
    if !c.assignable(m.key, TypeOf(key)) {
      return Some(TypeUnmatched);
    }
    if m.entries.Some? {
      cell.val := SetRoot(cell.val, m.(entries := Some(m.entries.value - {AssignTo(key, m.key)})));
    }
    return None;
  }

  /** A successful set stores the value under the key, keeps every other entry,
      keeps the key and element types, and keeps the layers in front of the map. */
  lemma MapSetFrame(c: Catalog, v: Value, key: Value, x: Value)
    requires MapSetDefined(c, v, key, x)
    requires MapSetSpec(c, v, key, x).Ok?
    ensures var m := RootOf(v);
      var m' := RootOf(MapSetSpec(c, v, key, x).value);
      var k := AssignTo(key, m.key);
      && m'.MapVal? && m'.key == m.key && m'.elem == m.elem
      && k in Entries(m')
      && Entries(m')[k] == (if x == Invalid then IfaceVal(m.elem.name, None) else AssignTo(x, m.elem))
      && Entries(m').Keys == Entries(m).Keys + {k}
      && (forall k' :: k' in Entries(m) && k' != k ==> Entries(m')[k'] == Entries(m)[k'])
  {
    var m := RootOf(v);
    var stored := if x == Invalid then IfaceVal(m.elem.name, None) else AssignTo(x, m.elem);
    RootOfSetRoot(v, Put(m, key, stored), false);
  }

  /** Set then get: reading the key back yields the value written, as the
      element slot holds it. An interface element hands back `x` itself when
      `x`'s type asserts to the requested one; any other element hands back `x`
      re-typed to the element type, when that type asserts to the requested one. */
  lemma {:induction false} MapGetAfterSet(c: Catalog, v: Value, key: Value, x: Value, t: Type)
    requires Coherent(c)
    requires MapSetDefined(c, v, key, x)
    requires x != Invalid && !x.IfaceVal?
    requires MapSetSpec(c, v, key, x).Ok?
    ensures KeyUsable(c, MapSetSpec(c, v, key, x).value, key)
    ensures var e := RootOf(v).elem;
      e.InterfaceType? ==>
        MapGet(c, MapSetSpec(c, v, key, x).value, key, t) ==
          if AssertsTo(c, Some(TypeOf(x)), t) then Ok(x) else Err(TypeUnmatched)
    ensures var e := RootOf(v).elem;
      !e.InterfaceType? ==>
        && Retype(x, e) != Invalid && TypeOf(Retype(x, e)) == e
        && MapGet(c, MapSetSpec(c, v, key, x).value, key, t) ==
             if AssertsTo(c, Some(e), t) then Ok(Retype(x, e)) else Err(TypeUnmatched)
  {
    MapSetFrame(c, v, key, x);
    var m := RootOf(v);
    var v' := MapSetSpec(c, v, key, x).value;
    assert c.assignable(TypeOf(x), m.elem);
    AssignToRetypes(c, x, m.elem);
    assert KeyUsable(c, v', key);
    MapGetPresent(c, v', key, t);
  }

  /** A failed set leaves the handle as it was; a non-map input fails with
      TypeInvalid and an unaccepted key with TypeUnmatched. */
  lemma MapSetErrors(c: Catalog, v: Value, key: Value, x: Value)
    requires MapSetDefined(c, v, key, x)
    ensures !RootOf(v).MapVal? ==> MapSetSpec(c, v, key, x) == Err(TypeInvalid)
    ensures RootOf(v).MapVal? && !KeyAccepted(c, RootOf(v), key) ==> MapSetSpec(c, v, key, x) == Err(TypeUnmatched)
    ensures RootOf(v).MapVal? && x != Invalid && !c.assignable(RootOf(v).elem, TypeOf(x)) ==>
      MapSetSpec(c, v, key, x) == Err(TypeUnmatched)
    ensures RootOf(v).MapVal? ==> (MapSetSpec(c, v, key, x).Ok? <==> MapSetWrites(c, RootOf(v), key, x))
  {
  }

  /** A nil map is never written: every path that reaches `SetMapIndex` on it
      panics, so a `MapSet` that returns reports TypeUnmatched. */
  lemma {:induction false} MapSetNilMap(c: Catalog, v: Value, key: Value, x: Value)
    requires MapSetDefined(c, v, key, x)
    requires RootOf(v).MapVal? && RootOf(v).entries.None?
    ensures MapSetSpec(c, v, key, x) == Err(TypeUnmatched)
  {
    var m := RootOf(v);
    if KeyAccepted(c, m, key) {
      assert !MapSetWrites(c, m, key, x);
    }
  }

  /** Reading a key that is present: the stored value, unboxed, iff its dynamic
      type asserts to the requested one, else TypeUnmatched. */
  lemma MapGetPresent(c: Catalog, v: Value, key: Value, t: Type)
    requires KeyUsable(c, v, key)
    requires RootOf(v).MapVal? && KeyAccepted(c, RootOf(v), key)
    requires AssignTo(key, RootOf(v).key) in Entries(RootOf(v))
    ensures var x := Entries(RootOf(v))[AssignTo(key, RootOf(v).key)];
      MapGet(c, v, key, t) == if x != Invalid && AssertsTo(c, DynType(x), t) then Ok(Unbox(x)) else Err(TypeUnmatched)
  {
  }

  /** A successful delete removes exactly the key. */
  lemma MapDeleteFrame(c: Catalog, v: Value, key: Value)
    requires KeyUsable(c, v, key)
    requires MapDeleteSpec(c, v, key).Ok?
    ensures var m := RootOf(v);
      var m' := RootOf(MapDeleteSpec(c, v, key).value);
      && m'.MapVal? && m'.key == m.key && m'.elem == m.elem
      && Entries(m') == Entries(m) - {AssignTo(key, m.key)}
  {
    var m := RootOf(v);
    if m.entries.Some? {
      RootOfSetRoot(v, m.(entries := Some(m.entries.value - {AssignTo(key, m.key)})), false);
    }
  }

  /** Deleting a key that is absent succeeds and changes nothing. */
  lemma {:induction false} MapDeleteAbsent(c: Catalog, v: Value, key: Value)
    requires KeyUsable(c, v, key)
    requires RootOf(v).MapVal? && KeyAccepted(c, RootOf(v), key)
    requires AssignTo(key, RootOf(v).key) !in Entries(RootOf(v))
    ensures MapDeleteSpec(c, v, key) == Ok(v)
  {
    var m := RootOf(v);
    if m.entries.Some? {
      assert m.entries.value - {AssignTo(key, m.key)} == m.entries.value;
      assert m.(entries := Some(m.entries.value - {AssignTo(key, m.key)})) == m;
      SetRootOfRoot(v, false);
    }
  }

  /** Delete is idempotent, and a later get of the key reports NotFound. */
  lemma {:induction false} MapDeleteIdempotent(c: Catalog, v: Value, key: Value, t: Type)
    requires KeyUsable(c, v, key)
    requires MapDeleteSpec(c, v, key).Ok?
    ensures KeyUsable(c, MapDeleteSpec(c, v, key).value, key)
    ensures MapDeleteSpec(c, MapDeleteSpec(c, v, key).value, key) == MapDeleteSpec(c, v, key)
    ensures MapGet(c, MapDeleteSpec(c, v, key).value, key, t) == Err(NotFound)
  {
    MapDeleteFrame(c, v, key);
    var v' := MapDeleteSpec(c, v, key).value;
    MapDeleteAbsent(c, v', key);
  }
}

=== FILE: rflutil.dfy ===
/** The type reconciler `ValueAs` (rflutil.go). */
module Rflutil {
  import opened Values

  /** The inputs on which `ValueAs` returns instead of panicking: `v.Type()`
      needs a valid value; with an interface target `reflect.TypeOf` of the
      zero `T` is nil and the first `AssignableTo` panics; and the forced
      `v.Interface().(T)` on the assignable path panics unless the value handed
      out has dynamic type exactly `T`. */
  predicate ValueAsDefined(c: Catalog, v: Value, t: Type) {
    v != Invalid && !t.InterfaceType? && AssignedAsserts(c, v, t)
  }

  /** Along the unwrap chain, the first value whose type is assignable to `t`,
      if the chain reaches one, hands out a value that asserts to `t`. */
  predicate AssignedAsserts(c: Catalog, v: Value, t: Type)
    requires v != Invalid
    decreases v
  {
    if c.assignable(TypeOf(v), t) then AssertsTo(c, DynType(v), t)
    else if c.convertible(TypeOf(v), t) then true
    else if v.IfaceVal? && v.dyn.Some? && v.dyn.value != Invalid then AssignedAsserts(c, v.dyn.value, t)
    else true
  }

  /** What `ValueAs` returns for `v` and target `t`: the value `v` hands out
      when its type is assignable to `t`, else its conversion when convertible,
      else the same question asked of an interface's payload; otherwise
      TypeUnmatched. */
  function Reconcile(c: Catalog, v: Value, t: Type): (r: Result<Value>)
    requires ValueAsDefined(c, v, t)
    decreases v
    ensures r.Err? ==> r.error == TypeUnmatched
  {
    var st := TypeOf(v);
    if c.assignable(st, t) then Ok(Unbox(v))
    else if c.convertible(st, t) then Ok(c.convert(v, t))
    else if v.IfaceVal? && v.dyn.Some? && v.dyn.value != Invalid then Reconcile(c, v.dyn.value, t)
    else Err(TypeUnmatched)
  }

  /** `ValueAs[T]`: tries assignability, then convertibility, then removes one
      interface layer and tries again. Nothing but an interface is unwrapped:
      a pointer, in particular, is never dereferenced. */
  method ValueAs(c: Catalog, v: Value, t: Type) returns (r: Result<Value>)
    requires ValueAsDefined(c, v, t)
    ensures r == Reconcile(c, v, t)
    ensures c.assignable(TypeOf(v), t) ==> r == Ok(Unbox(v)) && DynType(v) == Some(t)
    ensures !c.assignable(TypeOf(v), t) && c.convertible(TypeOf(v), t) ==> r == Ok(c.convert(v, t))
    ensures !v.IfaceVal? && !c.assignable(TypeOf(v), t) && !c.convertible(TypeOf(v), t) ==> r == Err(TypeUnmatched)
    ensures r.Err? ==> r.error == TypeUnmatched
  {
    var cur := v;
    while true
      invariant ValueAsDefined(c, cur, t)
      invariant Reconcile(c, cur, t) == Reconcile(c, v, t)
      decreases cur
    {
      var sourceType := TypeOf(cur);
      if c.assignable(sourceType, t) {
        return Ok(Unbox(cur));
      }
      if c.convertible(sourceType, t) {
        return Ok(c.convert(cur, t));
      }
      if cur.IfaceVal? {
        if cur.dyn.None? || cur.dyn.value == Invalid {
          break;
        }
        cur := cur.dyn.value;
      } else {
        break;
      }
    }
    return Err(TypeUnmatched);
  }

  /** For a value that is not an interface, `ValueAs` avoids the panic exactly
      when assignability to `t` (if it holds) means the type is `t` itself. */
  lemma ValueAsDefinedDirect(c: Catalog, v: Value, t: Type)
    requires v != Invalid && !v.IfaceVal? && !t.InterfaceType?
    ensures ValueAsDefined(c, v, t) <==> (c.assignable(TypeOf(v), t) ==> TypeOf(v) == t)
  {
  }

  /** A value of an unnamed slice type asked for as a defined slice type with
      the same elements (`[]int` as `type S []int`) is assignable, yet its
      dynamic type is not `S`: the forced assertion would panic, so the call is
      outside `ValueAsDefined`. */
  lemma ValueAsNamedSliceExcluded(c: Catalog, e: Type, items: Option<seq<Value>>, n: string)
    requires n != "" && c.assignable(SliceType("", e), SliceType(n, e))
    ensures !ValueAsDefined(c, SliceVal("", e, items), SliceType(n, e))
  {
    ValueAsDefinedDirect(c, SliceVal("", e, items), SliceType(n, e));
  }

  /** Unwrapping happens one layer at a time: when neither relation holds for an
      interface, the answer is the payload's answer. */
  lemma ReconcileUnwrapsOneLayer(c: Catalog, n: string, x: Value, t: Type)
    requires ValueAsDefined(c, x, t)
    requires !c.assignable(InterfaceType(n), t) && !c.convertible(InterfaceType(n), t)
    ensures ValueAsDefined(c, IfaceVal(n, Some(x)), t)
    ensures Reconcile(c, IfaceVal(n, Some(x)), t) == Reconcile(c, x, t)
  {
  }

  /** A success is what a value `w` behind interface layers of the input hands
      out, and then its type is exactly `t`, or the conversion of such a `w`
      whose type converts to `t`: no other value is ever produced. */
  lemma {:induction false} ReconcileResultOrigin(c: Catalog, v: Value, t: Type)
    requires ValueAsDefined(c, v, t)
    requires Reconcile(c, v, t).Ok?
    ensures var x := Reconcile(c, v, t).value;
      exists w :: w != Invalid && Reaches(v, w) &&
        ((x == Unbox(w) && x != Invalid && TypeOf(x) == t) || (c.convertible(TypeOf(w), t) && x == c.convert(w, t)))
    decreases v
  {
    if c.assignable(TypeOf(v), t) || c.convertible(TypeOf(v), t) {
      assert Reaches(v, v);
    } else {
      ReconcileResultOrigin(c, v.dyn.value, t);
      var x := Reconcile(c, v, t).value;
      var w :| w != Invalid && Reaches(v.dyn.value, w) &&
        ((x == Unbox(w) && x != Invalid && TypeOf(x) == t) || (c.convertible(TypeOf(w), t) && x == c.convert(w, t)));
      assert Reaches(v, w);
    }
  }

  /** `w` is `v` or lies inside `v` behind interface layers only. */
  predicate Reaches(v: Value, w: Value)
    decreases v
  {
    v == w || (v.IfaceVal? && v.dyn.Some? && Reaches(v.dyn.value, w))
  }
}

=== FILE: slices.dfy ===
/** Slice and array accessors `SliceGet`, `SliceSet` and `SliceAppend` (slice.go). */
module Slices {
  import opened Values
  import opened Util

  /** The elements of a slice or array; a nil slice has none. */
  function Elems(s: Value): seq<Value>
    requires s.SliceVal? || s.ArrayVal?
  {
    if s.ArrayVal? then s.elems else if s.items.Some? then s.items.value else []
  }

  /** `s` with element `i` replaced by `x`; its type and length stay. */
  function WithElem(s: Value, i: nat, x: Value): (r: Value)
    requires s.SliceVal? || s.ArrayVal?
    requires i < |Elems(s)|
    ensures (r.SliceVal? || r.ArrayVal?) && TypeOf(r) == TypeOf(s)
    ensures Elems(r) == Elems(s)[i := x]
  {
    if s.ArrayVal? then s.(elems := s.elems[i := x])
    else s.(items := Some(s.items.value[i := x]))
  }

  /** `SliceGet[T]`: bounds check, then the nil-interface rule, then the type
      assertion of the element to `t`. */
  function SliceGet(c: Catalog, v: Value, i: int, t: Type): (r: Result<Value>)
    requires v != Invalid
    ensures r == Err(TypeInvalid) <==> KindOf(RootOf(v)) !in [Slice, Array]
    ensures r == Err(IndexOutOfRange) <==>
      KindOf(RootOf(v)) in [Slice, Array] && !(0 <= i < |Elems(RootOf(v))|)
    ensures r.Ok? ==> 0 <= i < |Elems(RootOf(v))|
  {
    var s := RootOf(v);
    if KindOf(s) !in [Slice, Array] then Err(TypeInvalid)
    else if i < 0 || i >= |Elems(s)| then Err(IndexOutOfRange)
    else
      var item := Elems(s)[i];
      if item == Invalid || IsNilInterface(item) then
        if t.InterfaceType? then Ok(IfaceVal(t.name, None)) else Err(TypeUnmatched)
      else if AssertsTo(c, DynType(item), t) then Ok(Unbox(item))
      else Err(TypeUnmatched)
  }

  /** The one panicking path of `SliceSet`: an element of an array that was
      not reached through a pointer cannot be set. */
  predicate SliceSetDefined(c: Catalog, h: Handle, i: int, x: Value)
  {
    h.val != Invalid &&
    var s := Root(h);
    (s.val.ArrayVal? && 0 <= i < |s.val.elems| &&
     (if x == Invalid then s.val.elem.InterfaceType? else c.assignable(TypeOf(x), s.val.elem))
     ==> s.addressable)
  }

  /** The value the handle designates after `SliceSet`, or the error it reports. */
  function SliceSetSpec(c: Catalog, h: Handle, i: int, x: Value): Result<Value>
    requires SliceSetDefined(c, h, i, x)
  {
    var s := RootOf(h.val);
    if KindOf(s) !in [Slice, Array] then Err(TypeInvalid)
    else if i < 0 || i >= |Elems(s)| then Err(IndexOutOfRange)
    else if x == Invalid then
      if s.elem.InterfaceType? then Ok(SetRoot(h.val, WithElem(s, i, IfaceVal(s.elem.name, None))))
      else Err(TypeUnmatched)
    else if !c.assignable(TypeOf(x), s.elem) then Err(TypeUnmatched)
    else Ok(SetRoot(h.val, WithElem(s, i, AssignTo(x, s.elem))))
  }

  /** `SliceSet[T]`: kind and bounds checks, then the element-type check, then
      the element is written in place. */
  method SliceSet(c: Catalog, cell: Cell, i: int, x: Value) returns (err: Option<Error>)
    requires SliceSetDefined(c, Handle(cell.val, cell.addressable), i, x)
    modifies cell
    ensures Applied(SliceSetSpec(c, Handle(old(cell.val), cell.addressable), i, x), err, old(cell.val), cell.val)
  {
    var h := IndirectValueTilRoot(Handle(cell.val, cell.addressable));
    RootValueIgnoresAddressable(cell.val, cell.addressable);
    var s := h.val;
    var isSeq := IsKindIn(KindOf(s), [Slice, Array]);
    if !isSeq {
      return Some(TypeInvalid);
    }
    if i < 0 || i >= |Elems(s)| {
      return Some(IndexOutOfRange);
    }
    var itemType := s.elem;
    if x == Invalid {
      if itemType.InterfaceType? {
        cell.val := SetRoot(cell.val, WithElem(s, i, IfaceVal(itemType.name, None)));
        return None;
      }
      return Some(TypeUnmatched);
    }
    if !c.assignable(TypeOf(x), itemType) {
      return Some(TypeUnmatched);
    }
    cell.val := SetRoot(cell.val, WithElem(s, i, AssignTo(x, itemType)));
    return None;
  }

  /** The panicking path of `SliceAppend`: the result is force-asserted to
      `[]T`, so the slice's type must be exactly the unnamed `[]t` (a defined
      slice type such as `type S []int` fails the assertion). */
  predicate SliceAppendDefined(c: Catalog, v: Value, x: Value, t: Type)
  {
    v != Invalid &&
    var s := RootOf(v);
    (s.SliceVal? &&
     (if x == Invalid then s.elem.InterfaceType? else c.assignable(TypeOf(x), s.elem))
     ==> TypeOf(s) == SliceType("", t))
  }

  /** `SliceAppend[T]`: a new slice holding the input's elements followed by
      `x`; the input is not written. Arrays are refused. */
  function SliceAppend(c: Catalog, v: Value, x: Value, t: Type): (r: Result<seq<Value>>)
    requires SliceAppendDefined(c, v, x, t)
    ensures r == Err(TypeInvalid) <==> !RootOf(v).SliceVal?
    ensures r.Ok? ==> |r.value| == |Elems(RootOf(v))| + 1 && r.value[..|r.value| - 1] == Elems(RootOf(v))
  {
    var s := RootOf(v);
    if !s.SliceVal? then Err(TypeInvalid)
    else if x == Invalid then
      if s.elem.InterfaceType? then Ok(Elems(s) + [IfaceVal(s.elem.name, None)])
      else Err(TypeUnmatched)
    else if !c.assignable(TypeOf(x), s.elem) then Err(TypeUnmatched)
    else Ok(Elems(s) + [AssignTo(x, s.elem)])
  }

  /** Bounds come before types: an index outside `[0, len)` of a slice or
      array is reported as IndexOutOfRange by both accessors, whatever the
      value or the requested type. */
  lemma IndexCheckedFirst(c: Catalog, h: Handle, i: int, x: Value, t: Type)
    requires SliceSetDefined(c, h, i, x)
    requires KindOf(RootOf(h.val)) in [Slice, Array]
    requires i < 0 || i >= |Elems(RootOf(h.val))|
    ensures SliceGet(c, h.val, i, t) == Err(IndexOutOfRange)
    ensures SliceSetSpec(c, h, i, x) == Err(IndexOutOfRange)
  {
  }

  /** A successful set writes element `i` and nothing else: the type, the
      length and every other element stay. */
  lemma SliceSetFrame(c: Catalog, h: Handle, i: int, x: Value)
    requires SliceSetDefined(c, h, i, x)
    requires SliceSetSpec(c, h, i, x).Ok?
    ensures var s := RootOf(h.val);
      var s' := RootOf(SliceSetSpec(c, h, i, x).value);
      && (s'.SliceVal? || s'.ArrayVal?) && TypeOf(s') == TypeOf(s)
      && |Elems(s')| == |Elems(s)| && 0 <= i < |Elems(s)|
      && Elems(s')[i] == (if x == Invalid then IfaceVal(s.elem.name, None) else AssignTo(x, s.elem))
      && (forall j :: 0 <= j < |Elems(s)| && j != i ==> Elems(s')[j] == Elems(s)[j])
  {
    var s := RootOf(h.val);
    var stored := if x == Invalid then IfaceVal(s.elem.name, None) else AssignTo(x, s.elem);
    RootOfSetRoot(h.val, WithElem(s, i, stored), false);
  }

  /** Set then get: reading element `i` back yields the value written, as the
      element slot holds it: `x` itself in an interface slot, when its type
      asserts to the requested one; otherwise `x` re-typed to the element type,
      when that type asserts to the requested one. */
  lemma {:induction false} SliceGetAfterSet(c: Catalog, h: Handle, i: int, x: Value, t: Type)
    requires Coherent(c)
    requires SliceSetDefined(c, h, i, x)
    requires x != Invalid && !x.IfaceVal?
    requires SliceSetSpec(c, h, i, x).Ok?
    ensures SliceSetSpec(c, h, i, x).value != Invalid
    ensures var e := RootOf(h.val).elem;
      e.InterfaceType? ==>
        SliceGet(c, SliceSetSpec(c, h, i, x).value, i, t) ==
          if AssertsTo(c, Some(TypeOf(x)), t) then Ok(x) else Err(TypeUnmatched)
    ensures var e := RootOf(h.val).elem;
      !e.InterfaceType? ==>
        && Retype(x, e) != Invalid && TypeOf(Retype(x, e)) == e
        && SliceGet(c, SliceSetSpec(c, h, i, x).value, i, t) ==
             if AssertsTo(c, Some(e), t) then Ok(Retype(x, e)) else Err(TypeUnmatched)
  {
    SliceSetFrame(c, h, i, x);
    var s := RootOf(h.val);
    assert c.assignable(TypeOf(x), s.elem);
    AssignToRetypes(c, x, s.elem);
    SliceGetStored(c, SliceSetSpec(c, h, i, x).value, i, x, s.elem, t);
  }

  /** Reading an element that holds `x` as stored into a slot of type `e`. */
  lemma SliceGetStored(c: Catalog, v: Value, i: int, x: Value, e: Type, t: Type)
    requires Coherent(c) && x != Invalid && !x.IfaceVal? && c.assignable(TypeOf(x), e)
    requires v != Invalid && KindOf(RootOf(v)) in [Slice, Array] && 0 <= i < |Elems(RootOf(v))|
    requires Elems(RootOf(v))[i] == AssignTo(x, e)
    ensures SliceGet(c, v, i, t) ==
      if AssertsTo(c, Some(HeldType(x, e)), t) then Ok(Unbox(AssignTo(x, e))) else Err(TypeUnmatched)
  {
    AssignToRetypes(c, x, e);
    SliceGetAsserts(c, v, i, t);
  }

  /** A nil value is stored only into interface elements; any other nil store,
      and any value not assignable to the element type, is TypeUnmatched. */
  lemma SliceSetNilOrUnassignable(c: Catalog, h: Handle, i: int, x: Value)
    requires SliceSetDefined(c, h, i, x)
    requires KindOf(RootOf(h.val)) in [Slice, Array] && 0 <= i < |Elems(RootOf(h.val))|
    ensures x == Invalid ==>
      (SliceSetSpec(c, h, i, x).Ok? <==> RootOf(h.val).elem.InterfaceType?)
    ensures x != Invalid && !c.assignable(TypeOf(x), RootOf(h.val).elem) ==>
      SliceSetSpec(c, h, i, x) == Err(TypeUnmatched)
  {
  }

  /** Reading a nil interface element succeeds exactly when `t` is an
      interface type, and then yields the nil interface of `t`. */
  lemma SliceGetNilInterface(c: Catalog, v: Value, i: int, t: Type)
    requires v != Invalid
    requires KindOf(RootOf(v)) in [Slice, Array] && 0 <= i < |Elems(RootOf(v))|
    requires IsNilInterface(Elems(RootOf(v))[i])
    ensures SliceGet(c, v, i, t) == if t.InterfaceType? then Ok(IfaceVal(t.name, None)) else Err(TypeUnmatched)
  {
  }

  /** Reading a non-nil element succeeds exactly when its dynamic type asserts
      to `t`, and then yields the element with any interface layer removed. */
  lemma SliceGetAsserts(c: Catalog, v: Value, i: int, t: Type)
    requires v != Invalid
    requires KindOf(RootOf(v)) in [Slice, Array] && 0 <= i < |Elems(RootOf(v))|
    requires Elems(RootOf(v))[i] != Invalid && !IsNilInterface(Elems(RootOf(v))[i])
    ensures SliceGet(c, v, i, t).Ok? <==> AssertsTo(c, DynType(Elems(RootOf(v))[i]), t)
    ensures SliceGet(c, v, i, t).Ok? ==> SliceGet(c, v, i, t).value == Unbox(Elems(RootOf(v))[i])
  {
  }

  /** Append adds exactly the converted value at the end, and accepts a nil
      value only for interface elements. */
  lemma SliceAppendLast(c: Catalog, v: Value, x: Value, t: Type)
    requires SliceAppendDefined(c, v, x, t)
    requires RootOf(v).SliceVal?
    ensures x == Invalid ==> (SliceAppend(c, v, x, t).Ok? <==> RootOf(v).elem.InterfaceType?)
    ensures x != Invalid ==> (SliceAppend(c, v, x, t).Ok? <==> c.assignable(TypeOf(x), RootOf(v).elem))
    ensures SliceAppend(c, v, x, t).Ok? ==>
      var r := SliceAppend(c, v, x, t).value;
      r[|r| - 1] == (if x == Invalid then IfaceVal(t.name, None) else AssignTo(x, t))
  {
  }
}

=== FILE: struct_to_map.dfy ===
/** The tag-driven struct flattener `StructToMap` and its worker `structToMapEx`
    (struct_to_map.go). */
module StructMaps {
  import opened Values
  import opened Util
  import opened Tags

  /** `structFieldDetail`: a kept field's source name, its output key and its value. */
  datatype Detail = Detail(name: string, outKey: string, value: Value)

  /** `mapExtend(dst, src, true)`: the entries of `src` whose keys `dst` lacks are
      added; existing entries of `dst` are kept. */
  function Extend(dst: map<string, Detail>, src: map<string, Detail>): (r: map<string, Detail>)
    ensures r.Keys == dst.Keys + src.Keys
    ensures forall k :: k in dst ==> r[k] == dst[k]
    ensures forall k :: k in src && k !in dst ==> r[k] == src[k]
  {
    src + dst
  }

  /** The key `parseCustomTag` gives field `m` under tag `customTag` (the empty
      tag means the field name); `""` drops the field. */
  function OutKey(m: Member, customTag: string): string {
    if customTag == "" then m.decl.name
    else
      var tag := ParsedTag(m.decl, customTag, ",");
      if tag.Err? then m.decl.name
      else if tag.value.ignored || tag.value.name == "" then ""
      else if tag.value.HasAttr("omitempty") && IsEmptyValue(m.val) then ""
      else tag.value.name
  }

  /** The handle field `m` is reached by from a struct behind handle `h`,
      unwrapped: where flattening continues. */
  function FieldRoot(h: Handle, m: Member): Handle {
    Root(Handle(m.val, h.addressable))
  }

  /** Field `i` is an embedded struct that flattening opens up. */
  predicate Flattened(h: Handle, flatten: bool, i: nat)
    requires h.val.StructVal? && i < |h.val.members|
  {
    var m := h.val.members[i];
    m.decl.embedded && flatten && (m.decl.exported || h.addressable) && FieldRoot(h, m).val.StructVal?
  }

  /** Field `i` yields an entry of its own. */
  predicate KeptPlain(h: Handle, customTag: string, flatten: bool, i: nat)
    requires h.val.StructVal? && i < |h.val.members|
  {
    var m := h.val.members[i];
    !Flattened(h, flatten, i) && m.decl.exported && OutKey(m, customTag) != ""
  }

  /** Exported field names are non-empty (they start with an upper-case
      letter) and distinct, as in every Go struct type. Unexported names may
      repeat: the blank field `_` can occur several times. */
  predicate WellNamed(ms: seq<Member>) {
    && (forall a :: 0 <= a < |ms| && ms[a].decl.exported ==> ms[a].decl.name != "")
    && (forall a, b :: 0 <= a < b < |ms| && ms[a].decl.exported && ms[b].decl.exported ==>
          ms[a].decl.name != ms[b].decl.name)
  }

  lemma MemberSmaller(s: Value, i: nat)
    requires s.StructVal? && i < |s.members|
    ensures s.members[i].val < s
  {
    assert s.members[i] in s.members;
  }

  /** The details `structToMapEx` collects from the first `n` fields of the
      struct behind `h`. */
  function DetailsUpTo(h: Handle, customTag: string, flatten: bool, n: nat): map<string, Detail>
    requires h.val.StructVal? && n <= |h.val.members|
    decreases h.val, n
  {
    if n == 0 then map[]
    else
      var prev := DetailsUpTo(h, customTag, flatten, n - 1);
      var m := h.val.members[n - 1];
      if m.decl.embedded && flatten && !m.decl.exported && !h.addressable then prev
      else if Flattened(h, flatten, n - 1) then
        var inner := FieldRoot(h, m);
        MemberSmaller(h.val, n - 1);
        Extend(prev, DetailsUpTo(inner, customTag, flatten, |inner.val.members|))
      else if !m.decl.exported then prev
      else
        var key := OutKey(m, customTag);
        if key == "" then prev else prev[m.decl.name := Detail(m.decl.name, key, Unbox(m.val))]
  }

  /** All details of the struct behind `h`. */
  function AllDetails(h: Handle, customTag: string, flatten: bool): map<string, Detail>
    requires h.val.StructVal?
  {
    DetailsUpTo(h, customTag, flatten, |h.val.members|)
  }

  /** What `structToMapEx` returns. */
  function DetailsOf(h: Handle, customTag: string, flatten: bool): (r: Result<map<string, Detail>>)
    requires h.val != Invalid
    ensures r.Err? <==> !Root(h).val.StructVal?
    ensures r.Err? ==> r.error == TypeInvalid
  {
    var val := Root(h);
    if !val.val.StructVal? then Err(TypeInvalid) else Ok(AllDetails(val, customTag, flatten))
  }

  /** `structToMapEx`: walks the fields in order, recursing into embedded
      structs when flattening. */
  method StructToMapEx(h: Handle, customTag: string, flatten: bool) returns (r: Result<map<string, Detail>>)
    requires h.val != Invalid
    ensures r == DetailsOf(h, customTag, flatten)
    decreases h.val
  {
    var val := IndirectValueTilRoot(h);
    if !val.val.StructVal? {
      return Err(TypeInvalid);
    }
    var ms := val.val.members;
    var result: map<string, Detail> := map[];
    for i := 0 to |ms|
      invariant result == DetailsUpTo(val, customTag, flatten, i)
    {
      var field := ms[i];
      if field.decl.embedded && flatten {
        if !field.decl.exported && !val.addressable {
          continue;
        }
        var fieldRootVal := IndirectValueTilRoot(Handle(field.val, val.addressable));
        if fieldRootVal.val.StructVal? {
          MemberSmaller(val.val, i);
          var embeddedFields := StructToMapEx(fieldRootVal, customTag, flatten);
          // the recursive call cannot fail: its input is a struct
          result := Extend(result, embeddedFields.value);
          continue;
        }
      }
      if !field.decl.exported {
        continue;
      }
      var keyName := field.decl.name;
      if customTag != "" {
        // parseCustomTag; ParseTag reports only NotFound, which keeps the field name
        var tag := ParseTag(field.decl, customTag, ",");
        if tag.Ok? {
          if tag.value.ignored || tag.value.name == "" {
            keyName := "";
          } else if tag.value.HasAttr("omitempty") && IsEmptyValue(field.val) {
            keyName := "";
          } else {
            keyName := tag.value.name;
          }
        }
      }
      if keyName == "" {
        continue;
      }
      result := result[field.decl.name := Detail(field.decl.name, keyName, Unbox(field.val))];
    }
    return Ok(result);
  }

  /** The output keys of the details named in `names`. */
  function OutKeys(ds: map<string, Detail>, names: set<string>): set<string> {
    set n | n in names && n in ds :: ds[n].outKey
  }

  lemma OutKeysAdd(ds: map<string, Detail>, names: set<string>, n: string)
    requires n in ds
    ensures OutKeys(ds, names + {n}) == OutKeys(ds, names) + {ds[n].outKey}
  {
  }

  /** `out` is what copying the values of the details named in `done` to
      their output keys can give. */
  predicate ProjectsSome(ds: map<string, Detail>, done: set<string>, out: map<string, Value>) {
    && out.Keys == OutKeys(ds, done)
    && (forall k :: k in out ==> exists n :: n in ds && ds[n].outKey == k && ds[n].value == out[k])
  }

  /** Copying one more detail keeps the partial projection. */
  lemma ProjectStep(ds: map<string, Detail>, done: set<string>, out: map<string, Value>, n: string)
    requires n in ds && n !in done
    requires ProjectsSome(ds, done, out)
    ensures ProjectsSome(ds, done + {n}, out[ds[n].outKey := ds[n].value])
  {
    var out' := out[ds[n].outKey := ds[n].value];
    OutKeysAdd(ds, done, n);
    forall k | k in out'
      ensures exists m :: m in ds && ds[m].outKey == k && ds[m].value == out'[k]
    {
      if k == ds[n].outKey {
        assert ds[n].outKey == k && ds[n].value == out'[k];
      } else {
        assert out'[k] == out[k];
      }
    }
  }

  /** `out` is what copying every detail's value to its output key can give,
      whatever order the details are visited in. */
  predicate Projects(ds: map<string, Detail>, out: map<string, Value>) {
    ProjectsSome(ds, ds.Keys, out)
  }

  /** No more output keys than details they come from. */
  lemma {:induction false} OutKeysFewer(ds: map<string, Detail>, names: set<string>)
    requires names <= ds.Keys
    ensures |OutKeys(ds, names)| <= |names|
    decreases |names|
  {
    if names != {} {
      var n :| n in names;
      var rest := names - {n};
      OutKeysFewer(ds, rest);
      assert rest + {n} == names;
      OutKeysAdd(ds, rest, n);
      var ks := OutKeys(ds, rest);
      if ds[n].outKey in ks {
        assert ks + {ds[n].outKey} == ks;
      }
    }
  }

  /** Every output entry comes from a detail, so the output never has more
      entries than there are details. */
  lemma ProjectionSize(ds: map<string, Detail>, out: map<string, Value>)
    requires Projects(ds, out)
    ensures |out| <= |ds|
  {
    OutKeysFewer(ds, ds.Keys);
    assert |out.Keys| == |out|;
    assert |ds.Keys| == |ds|;
  }

  /** `StructToMap`: the details' values under their output keys. The details
      are visited in an unspecified order, so when two share an output key
      either may win. */
  method StructToMap(h: Handle, customTag: string, flatten: bool) returns (r: Result<map<string, Value>>)
    requires h.val != Invalid
    ensures r.Err? <==> !Root(h).val.StructVal?
    ensures r.Err? ==> r.error == TypeInvalid
    ensures r.Ok? ==> Projects(DetailsOf(h, customTag, flatten).value, r.value)
  {
    var detailsMap := StructToMapEx(h, customTag, flatten);
    if detailsMap.Err? {
      return Err(detailsMap.error);
    }
    var ds := detailsMap.value;
    var result: map<string, Value> := map[];
    var todo := ds.Keys;
    ghost var done: set<string> := {};
    while todo != {}
      invariant done == ds.Keys - todo && todo <= ds.Keys
      invariant ProjectsSome(ds, done, result)
      decreases |todo|
    {
      var n :| n in todo;
      var detail := ds[n];
      ProjectStep(ds, done, result, n);
      result := result[detail.outKey := detail.value];
      todo := todo - {n};
      done := done + {n};
    }
    assert done == ds.Keys;
    return Ok(result);
  }

  /** The step of an opened embedded struct. */
  lemma FlattenStep(h: Handle, customTag: string, flatten: bool, n: nat)
    requires h.val.StructVal? && 0 < n <= |h.val.members|
    requires Flattened(h, flatten, n - 1)
    ensures DetailsUpTo(h, customTag, flatten, n) ==
      Extend(DetailsUpTo(h, customTag, flatten, n - 1), AllDetails(FieldRoot(h, h.val.members[n - 1]), customTag, flatten))
  {
  }

  /** The step of a field that is not opened up. */
  lemma PlainStep(h: Handle, customTag: string, flatten: bool, n: nat)
    requires h.val.StructVal? && 0 < n <= |h.val.members|
    requires !Flattened(h, flatten, n - 1)
    ensures var m := h.val.members[n - 1];
      var prev := DetailsUpTo(h, customTag, flatten, n - 1);
      DetailsUpTo(h, customTag, flatten, n) ==
        if m.decl.exported && OutKey(m, customTag) != ""
        then prev[m.decl.name := Detail(m.decl.name, OutKey(m, customTag), Unbox(m.val))]
        else prev
  {
  }

  /** Every detail is filed under its field's source name and has a non-empty
      output key. */
  predicate NamedBySource(ds: map<string, Detail>) {
    forall k :: k in ds ==> ds[k].name == k && ds[k].outKey != ""
  }

  /** Every detail's output key is the key it is filed under. */
  predicate SelfKeyed(ds: map<string, Detail>) {
    forall k :: k in ds ==> ds[k].outKey == k
  }

  /** Extending keeps both properties: every entry comes from one side. */
  lemma ExtendKeeps(dst: map<string, Detail>, src: map<string, Detail>)
    ensures NamedBySource(dst) && NamedBySource(src) ==> NamedBySource(Extend(dst, src))
    ensures SelfKeyed(dst) && SelfKeyed(src) ==> SelfKeyed(Extend(dst, src))
  {
    var ds := Extend(dst, src);
    forall k | k in ds ensures (k in dst && ds[k] == dst[k]) || (k in src && ds[k] == src[k]) {
      if k in dst {
        assert ds[k] == dst[k];
      } else {
        assert ds[k] == src[k];
      }
    }
  }

  /** The details of every struct are named by source. */
  lemma {:induction false} DetailsNamedBySource(h: Handle, customTag: string, flatten: bool, n: nat)
    requires h.val.StructVal? && n <= |h.val.members|
    ensures NamedBySource(DetailsUpTo(h, customTag, flatten, n))
    decreases h.val, n
  {
    if n > 0 {
      DetailsNamedBySource(h, customTag, flatten, n - 1);
      if Flattened(h, flatten, n - 1) {
        var inner := FieldRoot(h, h.val.members[n - 1]);
        MemberSmaller(h.val, n - 1);
        DetailsNamedBySource(inner, customTag, flatten, |inner.val.members|);
        FlattenStep(h, customTag, flatten, n);
        ExtendKeeps(DetailsUpTo(h, customTag, flatten, n - 1), AllDetails(inner, customTag, flatten));
      } else {
        PlainStep(h, customTag, flatten, n);
      }
    }
  }

  /** Later fields only add details: a key once present stays present. */
  lemma {:induction false} DetailsGrow(h: Handle, customTag: string, flatten: bool, n: nat, l: nat)
    requires h.val.StructVal? && n <= l <= |h.val.members|
    ensures DetailsUpTo(h, customTag, flatten, n).Keys <= DetailsUpTo(h, customTag, flatten, l).Keys
    decreases l - n
  {
    if n < l {
      DetailsGrow(h, customTag, flatten, n + 1, l);
    }
  }

  /** The keys are exactly the names of the fields kept as plain entries and the
      keys contributed by the flattened embedded structs. */
  lemma {:induction false} DetailKeys(h: Handle, customTag: string, flatten: bool, n: nat, k: string)
    requires h.val.StructVal? && n <= |h.val.members|
    ensures k in DetailsUpTo(h, customTag, flatten, n) <==>
      exists i :: 0 <= i < n &&
        ((KeptPlain(h, customTag, flatten, i) && h.val.members[i].decl.name == k) ||
         (Flattened(h, flatten, i) &&
          k in AllDetails(FieldRoot(h, h.val.members[i]), customTag, flatten)))
  {
    if n > 0 {
      DetailKeys(h, customTag, flatten, n - 1, k);
    }
  }

  /** A field kept as a plain entry owns its name: with distinct field names
      (as Go guarantees), its detail is its own, whatever embedded structs
      flattened before or after it hold. So the outer field wins, and an
      embedded nil pointer or an unflattened embedded struct is one entry. */
  lemma {:induction false} PlainFieldWins(h: Handle, customTag: string, flatten: bool, n: nat, i: nat)
    requires h.val.StructVal? && n <= |h.val.members|
    requires WellNamed(h.val.members)
    requires i < n && KeptPlain(h, customTag, flatten, i)
    ensures var m := h.val.members[i];
      var ds := DetailsUpTo(h, customTag, flatten, n);
      m.decl.name in ds && ds[m.decl.name] == Detail(m.decl.name, OutKey(m, customTag), Unbox(m.val))
  {
    if n - 1 > i {
      PlainFieldWins(h, customTag, flatten, n - 1, i);
    }
  }

  /** With the empty tag every field is filed under its own name as output key. */
  lemma {:induction false} EmptyTagKeysAreNames(h: Handle, flatten: bool, n: nat)
    requires h.val.StructVal? && n <= |h.val.members|
    ensures SelfKeyed(DetailsUpTo(h, "", flatten, n))
    decreases h.val, n
  {
    if n > 0 {
      EmptyTagKeysAreNames(h, flatten, n - 1);
      if Flattened(h, flatten, n - 1) {
        var inner := FieldRoot(h, h.val.members[n - 1]);
        MemberSmaller(h.val, n - 1);
        EmptyTagKeysAreNames(inner, flatten, |inner.val.members|);
        FlattenStep(h, "", flatten, n);
        ExtendKeeps(DetailsUpTo(h, "", flatten, n - 1), AllDetails(inner, "", flatten));
      } else {
        PlainStep(h, "", flatten, n);
      }
    }
  }

  /** When every output key is the detail's own key, the projection is exact:
      the output holds each detail's value under its key and nothing else. */
  lemma ProjectionOfSelfKeyed(ds: map<string, Detail>, out: map<string, Value>)
    requires SelfKeyed(ds)
    requires Projects(ds, out)
    ensures out.Keys == ds.Keys
    ensures forall k :: k in out ==> out[k] == ds[k].value
  {
    forall k | k in out ensures k in ds && out[k] == ds[k].value {
      var n :| n in ds && ds[n].outKey == k && ds[n].value == out[k];
    }
    forall k | k in ds ensures k in out {
      assert ds[k].outKey in OutKeys(ds, ds.Keys);
    }
  }

  /** With the empty tag and no flattening, `StructToMap` maps every exported
      field's name to its value and nothing else; unexported fields never appear. */
  lemma EmptyTagExportedFields(h: Handle, out: map<string, Value>)
    requires h.val != Invalid && Root(h).val.StructVal?
    requires WellNamed(Root(h).val.members)
    requires Projects(DetailsOf(h, "", false).value, out)
    ensures var ms := Root(h).val.members;
      && (forall i :: 0 <= i < |ms| && ms[i].decl.exported ==> out.Keys >= {ms[i].decl.name} && out[ms[i].decl.name] == Unbox(ms[i].val))
      && (forall k :: k in out ==> exists i :: 0 <= i < |ms| && ms[i].decl.exported && ms[i].decl.name == k)
  {
    var val := Root(h);
    var ms := val.val.members;
    var ds := AllDetails(val, "", false);
    EmptyTagKeysAreNames(val, false, |ms|);
    assert ds == DetailsUpTo(val, "", false, |ms|);
    assert DetailsOf(h, "", false).value == ds;
    ProjectionOfSelfKeyed(ds, out);
    forall i | 0 <= i < |ms| && ms[i].decl.exported
      ensures out.Keys >= {ms[i].decl.name} && out[ms[i].decl.name] == Unbox(ms[i].val)
    {
      PlainFieldWins(val, "", false, |ms|, i);
    }
    forall k | k in out ensures exists i :: 0 <= i < |ms| && ms[i].decl.exported && ms[i].decl.name == k {
      DetailKeys(val, "", false, |ms|, k);
    }
  }

  /** The output key read off the tag text: a field without the tag keeps its
      name, a tag that drops the field gives none, else the text before the
      first comma. */
  lemma OutKeyText(m: Member, customTag: string)
    requires customTag != ""
    ensures customTag !in m.decl.tags ==> OutKey(m, customTag) == m.decl.name
    ensures customTag in m.decl.tags ==>
      OutKey(m, customTag) ==
        if TagOmits(m.decl, customTag, IsEmptyValue(m.val)) then "" else TagNameText(m.decl, customTag)
  {
    if customTag in m.decl.tags {
      ParsedTagOmits(m.decl, customTag, IsEmptyValue(m.val));
      ParsedTagText(m.decl, customTag, "omitempty");
    }
  }

  /** An exported field that is not flattened, under a custom tag, with
      distinct field names: without the tag it is filed under its name with its
      name as output key; with a tag that keeps it, its output key is the tag's
      name; with a tag that drops it (and no flattening to bring the name back),
      it has no detail at all. */
  lemma CustomTagDetails(h: Handle, customTag: string, flatten: bool, i: nat)
    requires h.val.StructVal? && i < |h.val.members| && WellNamed(h.val.members)
    requires customTag != "" && h.val.members[i].decl.exported && !Flattened(h, flatten, i)
    ensures var m := h.val.members[i];
      var ds := AllDetails(h, customTag, flatten);
      && (customTag !in m.decl.tags ==>
            m.decl.name in ds && ds[m.decl.name] == Detail(m.decl.name, m.decl.name, Unbox(m.val)))
      && (customTag in m.decl.tags && !TagOmits(m.decl, customTag, IsEmptyValue(m.val)) ==>
            m.decl.name in ds &&
            ds[m.decl.name] == Detail(m.decl.name, TagNameText(m.decl, customTag), Unbox(m.val)))
      && (customTag in m.decl.tags && TagOmits(m.decl, customTag, IsEmptyValue(m.val)) && !flatten ==>
            m.decl.name !in ds)
  {
    var ms := h.val.members;
    var m := ms[i];
    var n := |ms|;
    OutKeyText(m, customTag);
    if OutKey(m, customTag) != "" {
      PlainFieldWins(h, customTag, flatten, n, i);
    } else if !flatten {
      forall j | 0 <= j < n && KeptPlain(h, customTag, flatten, j) ensures ms[j].decl.name != m.decl.name {
        if j < i {
          assert ms[j].decl.name != ms[i].decl.name;
        } else if j > i {
          assert ms[i].decl.name != ms[j].decl.name;
        }
      }
      DetailKeys(h, customTag, flatten, n, m.decl.name);
    }
  }

  /** Flattening exposes every key of an opened embedded struct. */
  lemma FlattenedKeysPresent(h: Handle, customTag: string, i: nat, k: string)
    requires h.val.StructVal? && i < |h.val.members|
    requires Flattened(h, true, i)
    requires k in AllDetails(FieldRoot(h, h.val.members[i]), customTag, true)
    ensures k in AllDetails(h, customTag, true)
  {
    DetailKeys(h, customTag, true, |h.val.members|, k);
  }
}

=== FILE: structs.dfy ===
/** Struct field accessors `StructGetField` and `StructSetField`, and the
    keyFunc-driven struct-to-map conversion (struct.go). */
module Structs {
  import opened Values
  import opened Util
  import opened Fields
  import opened Tags

  /** The field a name selects in the struct the handle unwraps to. */
  function FieldOf(h: Handle, name: string, caseSensitive: bool): Option<nat>
    requires Root(h).val.StructVal?
  {
    Lookup(Decls(Root(h).val.members), name, caseSensitive)
  }

  /** `StructGetField[T]`. The checks come in a fixed order: the kind, the
      field name, access to an unexported field, the type assertion. */
  function StructGetField(c: Catalog, h: Handle, name: string, caseSensitive: bool, t: Type): (r: Result<Value>)
    requires h.val != Invalid
    ensures r == Err(TypeInvalid) <==> !Root(h).val.StructVal?
    ensures Root(h).val.StructVal? ==> (r == Err(NotFound) <==> FieldOf(h, name, caseSensitive).None?)
    ensures r == Err(ValueUnaddressable) ==> !Root(h).addressable
    ensures r.Ok? ==> var i := FieldOf(h, name, caseSensitive).value;
      && i < |Root(h).val.members|
      && var x := Root(h).val.members[i].val;
      && (Root(h).val.members[i].decl.exported || Root(h).addressable)
      && x != Invalid && AssertsTo(c, DynType(x), t) && r.value == Unbox(x)
  {
    var val := Root(h);
    if !val.val.StructVal? then Err(TypeInvalid)
    else
      var sf := FieldOf(h, name, caseSensitive);
      if sf.None? then Err(NotFound)
      else
        var m := val.val.members[sf.value];
        if !m.decl.exported && !val.addressable then Err(ValueUnaddressable)
        else if m.val != Invalid && AssertsTo(c, DynType(m.val), t) then Ok(Unbox(m.val))
        else Err(TypeUnmatched)
  }

  /** The one panicking path of `StructSetField`: `reflect.ValueOf(value).Type()`
      on a nil value, once the field was found and is settable. */
  predicate StructSetFieldDefined(h: Handle, name: string, x: Value, caseSensitive: bool) {
    h.val != Invalid &&
    (Root(h).val.StructVal? && FieldOf(h, name, caseSensitive).Some? && Root(h).addressable ==> x != Invalid)
  }

  /** Struct `s` with field `i` assigned `x`; the declarations stay. */
  function WithField(s: Value, i: nat, x: Value): (r: Value)
    requires s.StructVal? && i < |s.members|
    ensures r.StructVal? && r.name == s.name && |r.members| == |s.members|
    ensures Decls(r.members) == Decls(s.members)
    ensures r.members[i].val == AssignTo(x, s.members[i].decl.typ)
    ensures forall j :: 0 <= j < |s.members| && j != i ==> r.members[j] == s.members[j]
  {
    var m := s.members[i];
    var r := StructVal(s.name, s.members[i := Member(m.decl, AssignTo(x, m.decl.typ))]);
    assert Decls(r.members) == Decls(s.members) by {
      forall j | 0 <= j < |s.members| ensures Decls(r.members)[j] == Decls(s.members)[j] {
      }
    }
    r
  }

  /** The value the handle designates after `StructSetField`, or the error it reports. */
  function StructSetFieldSpec(c: Catalog, h: Handle, name: string, x: Value, caseSensitive: bool): Result<Value>
    requires StructSetFieldDefined(h, name, x, caseSensitive)
  {
    var val := Root(h);
    if !val.val.StructVal? then Err(TypeInvalid)
    else
      var sf := FieldOf(h, name, caseSensitive);
      if sf.None? then Err(NotFound)
      else
        var s := val.val;
        var m := s.members[sf.value];
        if !m.decl.exported && !val.addressable then Err(ValueUnaddressable)
        else if !val.addressable then Err(ValueUnsettable)
        else if !c.assignable(TypeOf(x), m.decl.typ) then Err(TypeUnmatched)
        else Ok(SetRoot(h.val, WithField(s, sf.value, x)))
  }

  /** `StructSetField[T]`: the checks of `StructGetField`, then settability and
      the assignability of the value to the field's type; the field is then
      written in place. */
  method StructSetField(c: Catalog, cell: Cell, name: string, x: Value, caseSensitive: bool) returns (err: Option<Error>)
    requires StructSetFieldDefined(Handle(cell.val, cell.addressable), name, x, caseSensitive)
    modifies cell
    ensures Applied(StructSetFieldSpec(c, Handle(old(cell.val), cell.addressable), name, x, caseSensitive),
                    err, old(cell.val), cell.val)
  {
    var val := IndirectValueTilRoot(Handle(cell.val, cell.addressable));
    if !val.val.StructVal? {
      return Some(TypeInvalid);
    }
    var fs := Decls(val.val.members);
    var sf := Lookup(fs, name, caseSensitive);
    if sf.None? {
      return Some(NotFound);
    }
    var m := val.val.members[sf.value];
    if !m.decl.exported && !val.addressable {
      return Some(ValueUnaddressable);
    }
    if !val.addressable {
      return Some(ValueUnsettable);
    }
    if !c.assignable(TypeOf(x), m.decl.typ) {
      return Some(TypeUnmatched);
    }
    cell.val := SetRoot(cell.val, WithField(val.val, sf.value, x));
    return None;
  }

  /** An unexported field can be read and written exactly when the handle is
      addressable; an exported one read always, written only when addressable. */
  lemma AccessNeedsAddress(c: Catalog, h: Handle, name: string, x: Value, caseSensitive: bool, t: Type)
    requires StructSetFieldDefined(h, name, x, caseSensitive)
    requires Root(h).val.StructVal? && FieldOf(h, name, caseSensitive).Some?
    ensures var m := Root(h).val.members[FieldOf(h, name, caseSensitive).value];
      && (StructGetField(c, h, name, caseSensitive, t) == Err(ValueUnaddressable) <==>
          !m.decl.exported && !Root(h).addressable)
      && (!Root(h).addressable ==>
          StructSetFieldSpec(c, h, name, x, caseSensitive) == Err(if m.decl.exported then ValueUnsettable else ValueUnaddressable))
      && (Root(h).addressable ==>
          (StructSetFieldSpec(c, h, name, x, caseSensitive).Ok? <==> c.assignable(TypeOf(x), m.decl.typ)))
  {
  }

  /** A field that is found and accessible (exported, or reached through an
      address): its value, unboxed, iff the value asserts to `t`, and
      TypeUnmatched otherwise. */
  lemma StructGetAsserts(c: Catalog, h: Handle, name: string, caseSensitive: bool, t: Type)
    requires h.val != Invalid && Root(h).val.StructVal? && FieldOf(h, name, caseSensitive).Some?
    requires var i := FieldOf(h, name, caseSensitive).value;
      i < |Root(h).val.members| && (Root(h).val.members[i].decl.exported || Root(h).addressable)
    ensures var x := Root(h).val.members[FieldOf(h, name, caseSensitive).value].val;
      StructGetField(c, h, name, caseSensitive, t) ==
        if x != Invalid && AssertsTo(c, DynType(x), t) then Ok(Unbox(x)) else Err(TypeUnmatched)
  {
  }

  /** A successful set writes the selected field and nothing else: the struct
      keeps its name, its field declarations and every other field's value. */
  lemma StructSetFieldFrame(c: Catalog, h: Handle, name: string, x: Value, caseSensitive: bool)
    requires StructSetFieldDefined(h, name, x, caseSensitive)
    requires StructSetFieldSpec(c, h, name, x, caseSensitive).Ok?
    ensures var s := Root(h).val;
      var i := FieldOf(h, name, caseSensitive).value;
      var h' := Handle(StructSetFieldSpec(c, h, name, x, caseSensitive).value, h.addressable);
      && Root(h') == Handle(Root(h').val, Root(h).addressable)
      && Root(h').val.StructVal? && Root(h').val.name == s.name
      && Decls(Root(h').val.members) == Decls(s.members)
      && i < |s.members| && Root(h').val.members[i].val == AssignTo(x, s.members[i].decl.typ)
      && (forall j :: 0 <= j < |s.members| && j != i ==> Root(h').val.members[j] == s.members[j])
  {
    RootOfSetRoot(h.val, WithField(Root(h).val, FieldOf(h, name, caseSensitive).value, x), h.addressable);
  }

  /** Set then get: reading the field back through the same handle yields the
      value written, as the field holds it: `x` itself in an interface field,
      when its type asserts to the requested one; otherwise `x` re-typed to the
      field's type, when that type asserts to the requested one. */
  lemma {:induction false} StructGetAfterSet(c: Catalog, h: Handle, name: string, x: Value, caseSensitive: bool, t: Type)
    requires Coherent(c)
    requires StructSetFieldDefined(h, name, x, caseSensitive)
    requires x != Invalid && !x.IfaceVal?
    requires StructSetFieldSpec(c, h, name, x, caseSensitive).Ok?
    ensures var h' := Handle(StructSetFieldSpec(c, h, name, x, caseSensitive).value, h.addressable);
      h'.val != Invalid
    ensures var h' := Handle(StructSetFieldSpec(c, h, name, x, caseSensitive).value, h.addressable);
      var f := Root(h).val.members[FieldOf(h, name, caseSensitive).value].decl.typ;
      && (f.InterfaceType? ==>
            StructGetField(c, h', name, caseSensitive, t) ==
              if AssertsTo(c, Some(TypeOf(x)), t) then Ok(x) else Err(TypeUnmatched))
      && (!f.InterfaceType? ==>
            && Retype(x, f) != Invalid && TypeOf(Retype(x, f)) == f
            && StructGetField(c, h', name, caseSensitive, t) ==
                 if AssertsTo(c, Some(f), t) then Ok(Retype(x, f)) else Err(TypeUnmatched))
  {
    StructSetFieldFrame(c, h, name, x, caseSensitive);
    AssignToRetypes(c, x, Root(h).val.members[FieldOf(h, name, caseSensitive).value].decl.typ);
  }

  /** The JSON name `parseJSONName` gives a field: `""` (drop it) when the field
      has no `json` tag, when the tag is `-` or has an empty name, or when it
      says `omitempty` and the value is empty; else the tag's name. */
  function JSONName(m: Member): string {
    var tag := ParsedTag(m.decl, "json", ",");
    if tag.Err? then ""
    else if tag.value.ignored || tag.value.name == "" then ""
    else if tag.value.HasAttr("omitempty") && IsEmptyValue(m.val) then ""
    else tag.value.name
  }

  /** What one field adds to the keyFunc map: nothing, a key and its value, or
      the error of an unexported field behind a non-addressable handle. */
  function KeyFuncEntry(m: Member, addressable: bool, parseJSONTag: bool,
                        keyFunc: Option<(string, bool) -> string>): Result<Option<(string, Value)>>
  {
    var name := if parseJSONTag then JSONName(m) else m.decl.name;
    if parseJSONTag && name == "" then Ok(None)
    else if keyFunc.None? then
      if m.decl.exported then Ok(Some((name, Unbox(m.val)))) else Ok(None)
    else
      var key := keyFunc.value(name, m.decl.exported);
      if key == "" then Ok(None)
      else if !m.decl.exported && !addressable then Err(ValueUnaddressable)
      else Ok(Some((key, Unbox(m.val))))
  }

  /** The keyFunc map after the first `n` fields, written in field order. */
  function KeyFuncMapUpTo(ms: seq<Member>, addressable: bool, parseJSONTag: bool,
                          keyFunc: Option<(string, bool) -> string>, n: nat): Result<map<string, Value>>
    requires n <= |ms|
  {
    if n == 0 then Ok(map[])
    else
      var prev := KeyFuncMapUpTo(ms, addressable, parseJSONTag, keyFunc, n - 1);
      if prev.Err? then prev
      else
        var e := KeyFuncEntry(ms[n - 1], addressable, parseJSONTag, keyFunc);
        if e.Err? then Err(e.error)
        else if e.value.None? then prev
        else Ok(prev.value[e.value.value.0 := e.value.value.1])
  }

  /** What the keyFunc `StructToMap` returns. */
  function KeyFuncMap(h: Handle, parseJSONTag: bool, keyFunc: Option<(string, bool) -> string>): Result<map<string, Value>>
    requires h.val != Invalid
  {
    var val := Root(h);
    if !val.val.StructVal? then Err(TypeInvalid)
    else KeyFuncMapUpTo(val.val.members, val.addressable, parseJSONTag, keyFunc, |val.val.members|)
  }

  /** `StructToMap` of struct.go (named `StructToMapKeyFunc` here): one entry per
      kept field, keyed by its name, its JSON name, or what `keyFunc` makes of it. */
  method StructToMapKeyFunc(h: Handle, parseJSONTag: bool, keyFunc: Option<(string, bool) -> string>)
    returns (r: Result<map<string, Value>>)
    requires h.val != Invalid
    ensures r == KeyFuncMap(h, parseJSONTag, keyFunc)
  {
    var val := IndirectValueTilRoot(h);
    if !val.val.StructVal? {
      return Err(TypeInvalid);
    }
    var ms := val.val.members;
    var result: map<string, Value> := map[];
    for i := 0 to |ms|
      invariant KeyFuncMapUpTo(ms, val.addressable, parseJSONTag, keyFunc, i) == Ok(result)
    {
      var field := ms[i];
      var name := field.decl.name;
      if parseJSONTag {
        var tag := ParseTag(field.decl, "json", ",");
        var jsonName := "";
        if tag.Ok? && !tag.value.ignored && tag.value.name != "" &&
           !(tag.value.HasAttr("omitempty") && IsEmptyValue(field.val)) {
          jsonName := tag.value.name;
        }
        if jsonName == "" {
          continue;
        }
        name := jsonName;
      }
      if keyFunc.None? {
        if field.decl.exported {
          result := result[name := Unbox(field.val)];
        }
        continue;
      }
      name := keyFunc.value(name, field.decl.exported);
      if name == "" {
        continue;
      }
      if !field.decl.exported && !val.addressable {
        assert KeyFuncEntry(ms[i], val.addressable, parseJSONTag, keyFunc).Err?;
        KeyFuncMapFails(ms, val.addressable, parseJSONTag, keyFunc, |ms|);
        return Err(ValueUnaddressable);
      }
      result := result[name := Unbox(field.val)];
    }
    return Ok(result);
  }

  /** The conversion fails iff some field fails, and the only failure is
      ValueUnaddressable. */
  lemma {:induction false} KeyFuncMapFails(ms: seq<Member>, addressable: bool, parseJSONTag: bool,
                                            keyFunc: Option<(string, bool) -> string>, n: nat)
    requires n <= |ms|
    ensures KeyFuncMapUpTo(ms, addressable, parseJSONTag, keyFunc, n).Err? <==>
      exists i :: 0 <= i < n && KeyFuncEntry(ms[i], addressable, parseJSONTag, keyFunc).Err?
    ensures KeyFuncMapUpTo(ms, addressable, parseJSONTag, keyFunc, n).Err? ==>
      KeyFuncMapUpTo(ms, addressable, parseJSONTag, keyFunc, n).error == ValueUnaddressable
  {
    if n > 0 {
      KeyFuncMapFails(ms, addressable, parseJSONTag, keyFunc, n - 1);
    }
  }

  /** Every key of the map comes from a field whose entry has that key and the
      stored value, and every kept field's key is in the map. */
  lemma {:induction false} KeyFuncMapKeys(ms: seq<Member>, addressable: bool, parseJSONTag: bool,
                                           keyFunc: Option<(string, bool) -> string>, n: nat)
    requires n <= |ms|
    requires KeyFuncMapUpTo(ms, addressable, parseJSONTag, keyFunc, n).Ok?
    ensures var out := KeyFuncMapUpTo(ms, addressable, parseJSONTag, keyFunc, n).value;
      && (forall k :: k in out ==>
            (exists i :: 0 <= i < n && KeyFuncEntry(ms[i], addressable, parseJSONTag, keyFunc) == Ok(Some((k, out[k])))))
      && (forall i :: (0 <= i < n && KeyFuncEntry(ms[i], addressable, parseJSONTag, keyFunc).Ok? &&
                       KeyFuncEntry(ms[i], addressable, parseJSONTag, keyFunc).value.Some?) ==>
            KeyFuncEntry(ms[i], addressable, parseJSONTag, keyFunc).value.value.0 in out)
  {
    if n > 0 {
      KeyFuncMapKeys(ms, addressable, parseJSONTag, keyFunc, n - 1);
      var out := KeyFuncMapUpTo(ms, addressable, parseJSONTag, keyFunc, n).value;
      var e := KeyFuncEntry(ms[n - 1], addressable, parseJSONTag, keyFunc);
      if e.value.Some? {
        var prev := KeyFuncMapUpTo(ms, addressable, parseJSONTag, keyFunc, n - 1).value;
        forall k | k in out
          ensures exists i :: 0 <= i < n && KeyFuncEntry(ms[i], addressable, parseJSONTag, keyFunc) == Ok(Some((k, out[k])))
        {
          if k == e.value.value.0 {
            assert KeyFuncEntry(ms[n - 1], addressable, parseJSONTag, keyFunc) == Ok(Some((k, out[k])));
          } else {
            assert k in prev && out[k] == prev[k];
          }
        }
      }
    }
  }

  /** With a nil keyFunc and no JSON parsing, the map holds exactly the exported
      fields, each under its own name, and the conversion cannot fail. */
  lemma NilKeyFuncExportedOnly(h: Handle)
    requires h.val != Invalid && Root(h).val.StructVal?
    ensures KeyFuncMap(h, false, None).Ok?
    ensures var out := KeyFuncMap(h, false, None).value;
      var ms := Root(h).val.members;
      && (forall k :: k in out ==>
            (exists i :: 0 <= i < |ms| && ms[i].decl.exported && ms[i].decl.name == k && out[k] == Unbox(ms[i].val)))
      && (forall i :: 0 <= i < |ms| && ms[i].decl.exported ==> ms[i].decl.name in out)
  {
    var ms := Root(h).val.members;
    var a := Root(h).addressable;
    KeyFuncMapFails(ms, a, false, None, |ms|);
    KeyFuncMapKeys(ms, a, false, None, |ms|);
  }

  /** A field for which keyFunc returns `""` adds nothing, and neither does a
      field dropped by its JSON tag; an unexported field that keyFunc keeps
      fails the conversion with ValueUnaddressable behind a non-addressable
      handle. */
  lemma KeyFuncDropsAndFails(h: Handle, parseJSONTag: bool, keyFunc: Option<(string, bool) -> string>, i: nat)
    requires h.val != Invalid && Root(h).val.StructVal? && i < |Root(h).val.members|
    ensures var m := Root(h).val.members[i];
      var name := if parseJSONTag then JSONName(m) else m.decl.name;
      var e := KeyFuncEntry(m, Root(h).addressable, parseJSONTag, keyFunc);
      && (parseJSONTag && JSONName(m) == "" ==> e == Ok(None))
      && (keyFunc.Some? && keyFunc.value(name, m.decl.exported) == "" ==> e == Ok(None))
      && ((keyFunc.Some? && !(parseJSONTag && name == "") && keyFunc.value(name, m.decl.exported) != "" &&
           !m.decl.exported && !Root(h).addressable) ==>
          KeyFuncMap(h, parseJSONTag, keyFunc) == Err(ValueUnaddressable))
  {
    var ms := Root(h).val.members;
    KeyFuncMapFails(ms, Root(h).addressable, parseJSONTag, keyFunc, |ms|);
  }

  /** The JSON name read off the tag text: none without a `json` tag or when
      the tag drops the field, else the text before the first comma. */
  lemma JSONNameText(m: Member)
    ensures "json" !in m.decl.tags ==> JSONName(m) == ""
    ensures "json" in m.decl.tags ==>
      JSONName(m) == if TagOmits(m.decl, "json", IsEmptyValue(m.val)) then "" else TagNameText(m.decl, "json")
  {
    if "json" in m.decl.tags {
      ParsedTagOmits(m.decl, "json", IsEmptyValue(m.val));
      ParsedTagText(m.decl, "json", "omitempty");
    }
  }

  /** With JSON names and a nil keyFunc the conversion cannot fail, and the map
      holds exactly the exported fields whose `json` tag keeps them, each under
      the name its tag text gives. A field without a `json` tag, with `-` or an
      empty name, or with `omitempty` on an empty value, adds no key. */
  lemma JSONTagKeys(h: Handle)
    requires h.val != Invalid && Root(h).val.StructVal?
    ensures KeyFuncMap(h, true, None).Ok?
    ensures var out := KeyFuncMap(h, true, None).value;
      var ms := Root(h).val.members;
      && (forall k :: k in out ==>
            exists i :: 0 <= i < |ms| && ms[i].decl.exported && "json" in ms[i].decl.tags &&
              !TagOmits(ms[i].decl, "json", IsEmptyValue(ms[i].val)) &&
              TagNameText(ms[i].decl, "json") == k && out[k] == Unbox(ms[i].val))
      && (forall i ::
            (0 <= i < |ms| && ms[i].decl.exported && "json" in ms[i].decl.tags &&
             !TagOmits(ms[i].decl, "json", IsEmptyValue(ms[i].val)))
            ==> TagNameText(ms[i].decl, "json") in out)
  {
    var ms := Root(h).val.members;
    var a := Root(h).addressable;
    KeyFuncMapFails(ms, a, true, None, |ms|);
    KeyFuncMapKeys(ms, a, true, None, |ms|);
    forall i | 0 <= i < |ms| ensures JSONName(ms[i]) != "" ==>
      "json" in ms[i].decl.tags && !TagOmits(ms[i].decl, "json", IsEmptyValue(ms[i].val)) &&
      JSONName(ms[i]) == TagNameText(ms[i].decl, "json")
    {
      JSONNameText(ms[i]);
    }
    forall i | 0 <= i < |ms| && "json" in ms[i].decl.tags && !TagOmits(ms[i].decl, "json", IsEmptyValue(ms[i].val))
      ensures JSONName(ms[i]) == TagNameText(ms[i].decl, "json") && JSONName(ms[i]) != ""
    {
      JSONNameText(ms[i]);
    }
  }
}

=== FILE: tags.dfy ===
/** The struct-tag parser (tag.go): a tag value such as `name,omitempty,key=v`
    is split on a delimiter; the first segment is the name, each later segment
    an attribute `key` or `key=value`. */
module Tags {
  import opened Values
  import opened Util
  import opened Fields

  /** Whether `d` occurs in `s` starting at `i`. */
  predicate OccursAt(s: string, d: string, i: nat) {
    i + |d| <= |s| && s[i..i + |d|] == d
  }

  /** The first occurrence of `d` in `s`, or -1 (`strings.Index`). */
  function IndexOf(s: string, d: string): (r: int)
    ensures -1 <= r <= |s|
    ensures r >= 0 ==> OccursAt(s, d, r)
    ensures forall i: nat :: i < |s| && (r < 0 || i < r) ==> !OccursAt(s, d, i)
  {
    if |s| < |d| then -1
    else if s[..|d|] == d then 0
    else
      var k := IndexOf(s[1..], d);
      assert forall i: nat :: 1 <= i < |s| ==> (OccursAt(s, d, i) <==> OccursAt(s[1..], d, i - 1)) by {
        forall i: nat | 1 <= i < |s| ensures OccursAt(s, d, i) <==> OccursAt(s[1..], d, i - 1) {
          if i + |d| <= |s| {
            assert s[i..i + |d|] == s[1..][i - 1..i - 1 + |d|];
          }
        }
      }
      if k < 0 then -1 else k + 1
  }

  /** `strings.Split` with a non-empty separator: the pieces between
      successive non-overlapping occurrences of `d`, left to right. */
  function Split(s: string, d: string): (r: seq<string>)
    requires |d| > 0
    decreases |s|
    ensures |r| >= 1
    ensures r[0] == if IndexOf(s, d) < 0 then s else s[..IndexOf(s, d)]
    ensures IndexOf(s, d) < 0 ==> r == [s]
  {
    var k := IndexOf(s, d);
    if k < 0 then [s] else [s[..k]] + Split(s[k + |d|..], d)
  }

  /** `strings.Join`: the inverse of `Split`. */
  function Join(parts: seq<string>, d: string): string
    requires |parts| >= 1
  {
    if |parts| == 1 then parts[0] else parts[0] + d + Join(parts[1..], d)
  }

  lemma JoinCons(a: string, ps: seq<string>, d: string)
    requires |ps| >= 1
    ensures Join([a] + ps, d) == a + d + Join(ps, d)
  {
    assert ([a] + ps)[1..] == ps;
  }

  lemma Reassemble(s: string, i: nat, j: nat)
    requires i <= j <= |s|
    ensures s == s[..i] + s[i..j] + s[j..]
  {
  }

  /** One step of `Split`: the piece before the first separator, then the
      pieces of the rest. */
  lemma SplitAt(s: string, d: string)
    requires |d| > 0 && IndexOf(s, d) >= 0
    ensures var k := IndexOf(s, d);
      && Split(s, d) == [s[..k]] + Split(s[k + |d|..], d)
      && s == s[..k] + d + s[k + |d|..]
  {
    var k := IndexOf(s, d);
    assert OccursAt(s, d, k);
    Reassemble(s, k, k + |d|);
  }

  /** Splitting loses nothing: joining the pieces with the separator gives the
      tag value back. */
  lemma {:induction false} JoinSplit(s: string, d: string)
    requires |d| > 0
    ensures Join(Split(s, d), d) == s
    decreases |s|
  {
    var k := IndexOf(s, d);
    if k >= 0 {
      var rest := s[k + |d|..];
      SplitAt(s, d);
      JoinSplit(rest, d);
      JoinCons(s[..k], Split(rest, d), d);
    }
  }

  /** No piece contains the separator. */
  lemma {:induction false} SplitPiecesFree(s: string, d: string)
    requires |d| > 0
    ensures forall j, i: nat :: 0 <= j < |Split(s, d)| && i < |Split(s, d)[j]| ==> !OccursAt(Split(s, d)[j], d, i)
    decreases |s|
  {
    var k := IndexOf(s, d);
    if k >= 0 {
      SplitPiecesFree(s[k + |d|..], d);
      forall i: nat | i < k ensures !OccursAt(s[..k], d, i) {
        assert !OccursAt(s, d, i);
        if i + |d| <= k {
          assert s[..k][i..i + |d|] == s[i..i + |d|];
        }
      }
      var parts := Split(s, d);
      assert parts[1..] == Split(s[k + |d|..], d);
    }
  }

  /** `strings.Split` in full: with an empty separator the value is cut into
      single characters, and an empty value gives no pieces at all. */
  function Pieces(s: string, d: string): (r: seq<string>)
    ensures |d| > 0 ==> |r| >= 1
    ensures |d| == 0 ==> |r| == |s|
  {
    if |d| > 0 then Split(s, d) else Chars(s)
  }

  /** The value cut into one-character pieces. */
  function Chars(s: string): (r: seq<string>)
    ensures |r| == |s|
  {
    if s == [] then [] else [[s[0]]] + Chars(s[1..])
  }

  /** Joining the single characters of a non-empty value gives it back. */
  lemma {:induction false} JoinChars(s: string)
    requires |s| > 0
    ensures Join(Chars(s), "") == s
    decreases |s|
  {
    if |s| > 1 {
      JoinChars(s[1..]);
      JoinCons([s[0]], Chars(s[1..]), "");
      assert s == [s[0]] + s[1..];
    } else {
      assert s == [s[0]];
    }
  }

  /** Joining the pieces gives the value back, whatever the separator, except
      that the empty value cut by the empty separator leaves no piece to join. */
  lemma JoinPieces(s: string, d: string)
    requires |d| > 0 || |s| > 0
    ensures |Pieces(s, d)| >= 1 && Join(Pieces(s, d), d) == s
  {
    if |d| > 0 {
      JoinSplit(s, d);
    } else {
      JoinChars(s);
    }
  }

  /** `strings.SplitN(seg, "=", 2)`: the key before the first `=` and the rest,
      or the whole segment and `""` when there is no `=`. */
  function KeyValue(seg: string): (string, string) {
    var k := IndexOf(seg, "=");
    if k < 0 then (seg, "") else (seg[..k], seg[k + 1..])
  }

  /** A segment without `=` is a key mapped to `""`; otherwise the key is the
      text before the first `=`, holds no `=`, and key, `=` and value give the
      segment back. */
  lemma KeyValueSplitsAtFirstEquals(seg: string)
    ensures '=' !in seg ==> KeyValue(seg) == (seg, "")
    ensures '=' in seg ==> '=' !in KeyValue(seg).0 && KeyValue(seg).0 + "=" + KeyValue(seg).1 == seg
  {
    var k := IndexOf(seg, "=");
    forall i | 0 <= i < |seg| ensures OccursAt(seg, "=", i) <==> seg[i] == '=' {
      assert i + 1 <= |seg| ==> seg[i..i + 1] == [seg[i]];
    }
    if '=' in seg {
      assert k >= 0;
      assert seg == seg[..k] + "=" + seg[k + 1..];
    }
  }

  /** The attributes of the option segments: each segment in turn writes its
      key, so a later duplicate overwrites an earlier one. */
  function AttrsOf(opts: seq<string>): map<string, string> {
    if opts == [] then map[]
    else
      var kv := KeyValue(opts[|opts| - 1]);
      AttrsOf(opts[..|opts| - 1])[kv.0 := kv.1]
  }

  /** An attribute is present iff some segment has that key. */
  lemma {:induction false} AttrsPresent(opts: seq<string>, key: string)
    ensures key in AttrsOf(opts) <==> exists j :: 0 <= j < |opts| && KeyValue(opts[j]).0 == key
  {
    if opts != [] {
      var n := |opts| - 1;
      var init := opts[..n];
      AttrsPresent(init, key);
      if KeyValue(opts[n]).0 != key && key in AttrsOf(opts) {
        var j :| 0 <= j < n && KeyValue(init[j]).0 == key;
        assert init[j] == opts[j];
      }
      if key !in AttrsOf(opts) {
        forall j | 0 <= j < n ensures KeyValue(opts[j]).0 != key {
          assert init[j] == opts[j];
        }
      }
    }
  }

  /** The value of an attribute comes from the last segment with its key. */
  lemma {:induction false} AttrsLastValue(opts: seq<string>, key: string, j: nat)
    requires j < |opts| && KeyValue(opts[j]).0 == key
    requires forall l :: j < l < |opts| ==> KeyValue(opts[l]).0 != key
    ensures key in AttrsOf(opts) && AttrsOf(opts)[key] == KeyValue(opts[j]).1
  {
    var n := |opts| - 1;
    if j < n {
      var init := opts[..n];
      assert init[j] == opts[j];
      forall l | j < l < n ensures KeyValue(init[l]).0 != key {
        assert init[l] == opts[l];
      }
      AttrsLastValue(init, key, j);
    }
  }

  /** An attribute is present iff some segment has that key, and its value
      comes from the last such segment. */
  lemma {:induction false} AttrsLastWins(opts: seq<string>, key: string)
    ensures key in AttrsOf(opts) <==> exists j :: 0 <= j < |opts| && KeyValue(opts[j]).0 == key
    ensures forall j :: (0 <= j < |opts| && KeyValue(opts[j]).0 == key &&
                         forall l :: j < l < |opts| ==> KeyValue(opts[l]).0 != key)
                        ==> AttrsOf(opts)[key] == KeyValue(opts[j]).1
  {
    AttrsPresent(opts, key);
    forall j | 0 <= j < |opts| && KeyValue(opts[j]).0 == key &&
               (forall l :: j < l < |opts| ==> KeyValue(opts[l]).0 != key)
      ensures AttrsOf(opts)[key] == KeyValue(opts[j]).1
    {
      AttrsLastValue(opts, key, j);
    }
  }

  /** A parsed tag (`Tag`). */
  datatype Tag = Tag(name: string, fieldName: string, ignored: bool, attrs: map<string, string>)
  {
    /** `GetAttr`: the stored value and whether the key is present. */
    function GetAttr(key: string): (r: (string, bool)) {
      if key in attrs then (attrs[key], true) else ("", false)
    }

    /** `GetAttrDefault`: the stored value, even `""`, or `defVal` when absent. */
    function GetAttrDefault(key: string, defVal: string): string {
      if key in attrs then attrs[key] else defVal
    }

    /** `HasAttr`. */
    predicate HasAttr(key: string) {
      key in attrs
    }
  }

  /** The three attribute accessors agree: `HasAttr` is `GetAttr`'s flag, and
      `GetAttrDefault` returns `GetAttr`'s value when present (even `""`) and the
      default only when absent. */
  lemma AttrAccessorsAgree(t: Tag, key: string, defVal: string)
    ensures t.HasAttr(key) <==> t.GetAttr(key).1
    ensures t.GetAttr(key).1 ==> t.GetAttrDefault(key, defVal) == t.GetAttr(key).0
    ensures !t.GetAttr(key).1 ==> t.GetAttrDefault(key, defVal) == defVal && t.GetAttr(key).0 == ""
  {
  }

  /** What `ParseTag` returns for field `f`. */
  function ParsedTag(f: Field, tagName: string, delim: string): (r: Result<Tag>)
    ensures r.Err? <==> tagName !in f.tags
    ensures r.Err? ==> r.error == NotFound
    ensures r.Ok? ==> r.value.fieldName == f.name && (r.value.ignored <==> r.value.name == "-")
  {
    if tagName !in f.tags then Err(NotFound)
    else
      var parts := Pieces(f.tags[tagName], delim);
      if |parts| == 0 then Ok(Tag("", f.name, false, map[]))
      else Ok(Tag(parts[0], f.name, parts[0] == "-", AttrsOf(parts[1..])))
  }

  /** `ParseTag`: looks the tag up, splits it, then reads the attribute
      segments one by one. */
  method ParseTag(f: Field, tagName: string, delim: string) returns (r: Result<Tag>)
    ensures r == ParsedTag(f, tagName, delim)
  {
    if tagName !in f.tags {
      return Err(NotFound);
    }
    var tagValue := f.tags[tagName];
    var tags := Pieces(tagValue, delim);
    if |tags| == 0 {
      return Ok(Tag("", f.name, false, map[]));
    }
    var name := tags[0];
    var attrs: map<string, string> := map[];
    var opts := tags[1..];
    for i := 0 to |opts|
      invariant attrs == AttrsOf(opts[..i])
    {
      assert opts[..i + 1][..i] == opts[..i];
      var kv := KeyValue(opts[i]);
      attrs := attrs[kv.0 := kv.1];
    }
    assert opts[..|opts|] == opts;
    return Ok(Tag(name, f.name, name == "-", attrs));
  }

  /** The name is the text before the first delimiter, or the whole value
      when there is none, and then there are no attributes. */
  lemma TagNameBeforeDelimiter(f: Field, tagName: string, delim: string)
    requires |delim| > 0
    requires tagName in f.tags
    ensures var v := f.tags[tagName];
      var t := ParsedTag(f, tagName, delim).value;
      && (IndexOf(v, delim) < 0 ==> t.name == v && t.attrs == map[])
      && (IndexOf(v, delim) >= 0 ==> t.name == v[..IndexOf(v, delim)] && OccursAt(v, delim, |t.name|))
  {
  }

  /** With the empty delimiter the name is the first character of the tag
      value, and an empty tag value gives an empty, not ignored, name and no
      attributes. */
  lemma TagWithEmptyDelimiter(f: Field, tagName: string)
    requires tagName in f.tags
    ensures var v := f.tags[tagName];
      var t := ParsedTag(f, tagName, "").value;
      && (v == "" ==> t == Tag("", f.name, false, map[]))
      && (v != "" ==> t.name == v[..1] && (t.ignored <==> v[0] == '-'))
  {
  }

  /** `GetAttr` on a parsed tag: a key is found iff some segment after the first
      has it, and its value comes from the last such segment. */
  lemma {:induction false} ParsedAttrLastWins(f: Field, tagName: string, delim: string, key: string, j: nat)
    requires tagName in f.tags
    requires var parts := Pieces(f.tags[tagName], delim);
      1 <= j < |parts| && KeyValue(parts[j]).0 == key &&
      forall l :: j < l < |parts| ==> KeyValue(parts[l]).0 != key
    ensures ParsedTag(f, tagName, delim).value.GetAttr(key) ==
      (KeyValue(Pieces(f.tags[tagName], delim)[j]).1, true)
  {
    var parts := Pieces(f.tags[tagName], delim);
    var opts := parts[1..];
    assert opts[j - 1] == parts[j];
    forall l | j - 1 < l < |opts| ensures KeyValue(opts[l]).0 != key {
      assert opts[l] == parts[l + 1];
    }
    AttrsLastValue(opts, key, j - 1);
  }

  /** The name a tag value gives, read off the text: everything before the
      first comma. */
  function TagNameText(f: Field, tagName: string): string
    requires tagName in f.tags
  {
    Split(f.tags[tagName], ",")[0]
  }

  /** The rule both struct converters apply to a comma-separated tag, read off
      the text: the field is dropped when the name is `-` or empty, or when some
      later segment has the key `omitempty` and the value is empty. */
  predicate TagOmits(f: Field, tagName: string, empty: bool)
    requires tagName in f.tags
  {
    var parts := Split(f.tags[tagName], ",");
    parts[0] == "-" || parts[0] == "" ||
    (empty && exists j :: 1 <= j < |parts| && KeyValue(parts[j]).0 == "omitempty")
  }

  /** `ParseTag` with the comma delimiter agrees with the text: its name is the
      text before the first comma, it is ignored iff that is `-`, and it has an
      attribute iff some later segment has that key. */
  lemma ParsedTagText(f: Field, tagName: string, key: string)
    requires tagName in f.tags
    ensures var parts := Split(f.tags[tagName], ",");
      var t := ParsedTag(f, tagName, ",").value;
      && t.name == TagNameText(f, tagName) && (t.ignored <==> parts[0] == "-")
      && (t.HasAttr(key) <==> exists j :: 1 <= j < |parts| && KeyValue(parts[j]).0 == key)
  {
    var parts := Split(f.tags[tagName], ",");
    var opts := parts[1..];
    AttrsPresent(opts, key);
    if key in AttrsOf(opts) {
      var j :| 0 <= j < |opts| && KeyValue(opts[j]).0 == key;
      assert opts[j] == parts[j + 1];
    }
    if exists j :: 1 <= j < |parts| && KeyValue(parts[j]).0 == key {
      var j :| 1 <= j < |parts| && KeyValue(parts[j]).0 == key;
      assert opts[j - 1] == parts[j];
    }
  }

  /** A parsed tag drops its field (ignored, empty name, or `omitempty` on an
      empty value) exactly when the text says so. */
  lemma ParsedTagOmits(f: Field, tagName: string, empty: bool)
    requires tagName in f.tags
    ensures var t := ParsedTag(f, tagName, ",").value;
      (t.ignored || t.name == "" || (t.HasAttr("omitempty") && empty)) <==> TagOmits(f, tagName, empty)
  {
    ParsedTagText(f, tagName, "omitempty");
  }

  /** What `ParseTagOf` returns: TypeInvalid unless the handle unwraps to a
      struct, NotFound unless one of its declared fields has the name, else
      `ParseTag` of that field. */
  function ParsedTagOf(h: Handle, fieldName: string, tagName: string, delim: string): (r: Result<Tag>)
    requires h.val != Invalid
  {
    var s := Root(h).val;
    if !s.StructVal? then Err(TypeInvalid)
    else
      var fs := Decls(s.members);
      var i := FieldByName(fs, fieldName);
      if i.None? then Err(NotFound) else ParsedTag(fs[i.value], tagName, delim)
  }

  /** `ParseTagOf`: the field is looked up among the struct's declared fields
      (promoted fields of embedded structs are not searched). */
  method ParseTagOf(h: Handle, fieldName: string, tagName: string, delim: string) returns (r: Result<Tag>)
    requires h.val != Invalid
    ensures r == ParsedTagOf(h, fieldName, tagName, delim)
    ensures r == Err(TypeInvalid) <==> !Root(h).val.StructVal?
    ensures Root(h).val.StructVal? ==> var fs := Decls(Root(h).val.members);
      var i := FieldByName(fs, fieldName);
      (r == Err(NotFound) <==> i.None? || tagName !in fs[i.value].tags)
  {
    var val := IndirectValueTilRoot(h);
    if !val.val.StructVal? {
      return Err(TypeInvalid);
    }
    var fs := Decls(val.val.members);
    var i := FieldByName(fs, fieldName);
    if i.None? {
      return Err(NotFound);
    }
    r := ParseTag(fs[i.value], tagName, delim);
  }

  /** On a struct, `ParseTagOf` of a field name is `ParseTag` of the first
      declared field with that name. */
  lemma ParsedTagOfField(h: Handle, fieldName: string, tagName: string, delim: string, i: nat)
    requires h.val != Invalid
    requires Root(h).val.StructVal?
    requires i < |Root(h).val.members| && Root(h).val.members[i].decl.name == fieldName
    requires forall j :: 0 <= j < i ==> Root(h).val.members[j].decl.name != fieldName
    ensures ParsedTagOf(h, fieldName, tagName, delim) == ParsedTag(Root(h).val.members[i].decl, tagName, delim)
  {
    var fs := Decls(Root(h).val.members);
    var k := FieldByName(fs, fieldName);
    assert fs[i].name == fieldName;
    assert k.Some? && k.value == i;
  }

  /** Field `i` of `fs` carries the tag `tagName`. */
  function CarriesTag(fs: seq<Field>, tagName: string): nat -> bool {
    (i: nat) => i < |fs| && tagName in fs[i].tags
  }

  /** The tags `ParseTagsOf` collects from the first `n` fields. */
  function TagsUpTo(fs: seq<Field>, tagName: string, delim: string, n: nat): seq<Tag>
    requires n <= |fs|
  {
    if n == 0 then []
    else
      var r := ParsedTag(fs[n - 1], tagName, delim);
      TagsUpTo(fs, tagName, delim, n - 1) + (if r.Ok? then [r.value] else [])
  }

  /** The tags are those of exactly the fields that carry `tagName`, in field
      order: the `j`-th tag belongs to the `j`-th carrying field. */
  lemma {:induction false} TagsInFieldOrder(fs: seq<Field>, tagName: string, delim: string, n: nat)
    requires n <= |fs|
    ensures var idx := IndicesWhere(n, CarriesTag(fs, tagName));
      var ts := TagsUpTo(fs, tagName, delim, n);
      |ts| == |idx| &&
      forall j :: 0 <= j < |idx| ==> idx[j] < |fs| && Ok(ts[j]) == ParsedTag(fs[idx[j]], tagName, delim)
  {
    if n > 0 {
      TagsInFieldOrder(fs, tagName, delim, n - 1);
    }
  }

  /** The one panicking path of `ParseTagsOf`: it counts and reads the fields of
      the value it was given, not of the unwrapped one, so that value must be the
      struct itself. */
  predicate ParseTagsOfDefined(h: Handle) {
    h.val != Invalid && (Root(h).val.StructVal? ==> h.val.StructVal?)
  }

  /** `ParseTagsOf`: the tags of the fields that carry `tagName`, in field order;
      a field without it is skipped, not an error. */
  method ParseTagsOf(h: Handle, tagName: string, delim: string) returns (r: Result<seq<Tag>>)
    requires ParseTagsOfDefined(h)
    ensures r == Err(TypeInvalid) <==> !Root(h).val.StructVal?
    ensures Root(h).val.StructVal? ==> r == Ok(TagsUpTo(Decls(h.val.members), tagName, delim, |h.val.members|))
  {
    var val := IndirectValueTilRoot(h);
    if !val.val.StructVal? {
      return Err(TypeInvalid);
    }
    var fs := Decls(h.val.members);
    var tags: seq<Tag> := [];
    for i := 0 to |fs|
      invariant tags == TagsUpTo(fs, tagName, delim, i)
    {
      var tag := ParseTag(fs[i], tagName, delim);
      assert TagsUpTo(fs, tagName, delim, i + 1) == tags + (if tag.Ok? then [tag.value] else []);
      if tag.Err? {
        // the only error ParseTag reports is NotFound: skip the field
        continue;
      }
      tags := tags + [tag.value];
    }
    r := Ok(tags);
  }
}

=== FILE: util.dfy ===
/** Kind tests and unwrapping of pointers and interfaces (util.go). */
module Util {
  import opened Values

  /** `isKindIn`: scans the candidate kinds and stops at the first match. */
  method IsKindIn(k: Kind, kinds: seq<Kind>) returns (found: bool)
    ensures found <==> k in kinds
  {
    for i := 0 to |kinds|
      invariant k !in kinds[..i]
    {
      if k == kinds[i] {
        return true;
      }
    }
    return false;
  }

  /** Where unwrapping a handle ends: the first value that is neither a
      pointer nor an interface, or an invalid value when a nil layer is met.
      Stepping through a pointer makes the result addressable, stepping through
      an interface does not. The result is a part of the input. */
  function Root(h: Handle): (r: Handle)
    decreases h.val
    ensures r.val.Invalid? || !IsIndirect(r.val)
    ensures r.val.Invalid? || r.val == h.val || r.val < h.val
  {
    match h.val
    case PtrVal(_, _, target) =>
      if target.None? then Handle(Invalid, false) else Root(Handle(target.value, true))
    case IfaceVal(_, dyn) =>
      if dyn.None? then Handle(Invalid, false) else Root(Handle(dyn.value, false))
    case _ => h
  }

  /** The value reached by unwrapping, when addressability does not matter. */
  function RootOf(v: Value): Value {
    Root(Handle(v, false)).val
  }

  /** `indirectValueTilRoot`: follows pointers and interfaces one layer at a time. */
  method IndirectValueTilRoot(h: Handle) returns (r: Handle)
    ensures r == Root(h)
  {
    r := h;
    while IsIndirect(r.val)
      invariant Root(r) == Root(h)
      decreases r.val
    {
      var next := if r.val.PtrVal? then r.val.target else r.val.dyn;
      if next.None? {
        return Handle(Invalid, false);
      }
      r := Handle(next.value, r.val.PtrVal?);
    }
  }

  /** Replaces what `v` unwraps to by `r`, keeping every pointer and interface
      layer on the way: the value a handle designates after a write through it. */
  function SetRoot(v: Value, r: Value): Value
    decreases v
  {
    match v
    case PtrVal(_, _, target) => if target.None? then v else v.(target := Some(SetRoot(target.value, r)))
    case IfaceVal(n, dyn) => if dyn.None? then v else IfaceVal(n, Some(SetRoot(dyn.value, r)))
    case _ => r
  }

  /** Where unwrapping ends does not depend on the starting addressability. */
  lemma RootValueIgnoresAddressable(v: Value, a: bool)
    ensures Root(Handle(v, a)).val == RootOf(v)
  {
  }

  /** A value that is neither a pointer nor an interface unwraps to itself. */
  lemma RootOfDirect(h: Handle)
    requires !IsIndirect(h.val)
    ensures Root(h) == h
  {
  }

  /** A nil pointer unwraps to an invalid value. */
  lemma RootOfNilPointer(n: string, e: Type, a: bool)
    ensures Root(Handle(PtrVal(n, e, None), a)).val == Invalid
  {
  }

  /** Unwrapping is idempotent. */
  lemma {:induction false} RootIdempotent(h: Handle)
    ensures Root(Root(h)) == Root(h)
  {
    var r := Root(h);
    assert r.val.Invalid? || !IsIndirect(r.val);
  }

  /** Nested pointers are stripped completely: `**T` reaches the `T` value,
      and it is addressable. */
  lemma {:induction false} RootOfDoublePointer(x: Value, n1: string, e1: Type, n2: string, e2: Type, a: bool)
    requires !IsIndirect(x)
    ensures Root(Handle(PtrVal(n1, e1, Some(PtrVal(n2, e2, Some(x)))), a)) == Handle(x, true)
  {
    RootOfDirect(Handle(x, true));
  }

  /** After a write through the handle, the handle unwraps to the written value,
      with the addressability it had before. */
  lemma {:induction false} RootOfSetRoot(v: Value, r: Value, a: bool)
    requires Root(Handle(v, a)).val != Invalid
    requires r != Invalid && !IsIndirect(r)
    ensures Root(Handle(SetRoot(v, r), a)) == Handle(r, Root(Handle(v, a)).addressable)
    decreases v
  {
    match v
    case PtrVal(_, _, target) =>
      RootOfSetRoot(target.value, r, true);
    case IfaceVal(n, dyn) =>
      RootOfSetRoot(dyn.value, r, false);
    case _ =>
  }

  /** Writing back what the handle already unwraps to changes nothing. */
  lemma {:induction false} SetRootOfRoot(v: Value, a: bool)
    requires Root(Handle(v, a)).val != Invalid
    ensures SetRoot(v, Root(Handle(v, a)).val) == v
    decreases v
  {
    match v
    case PtrVal(_, _, target) =>
      SetRootOfRoot(target.value, true);
    case IfaceVal(n, dyn) =>
      SetRootOfRoot(dyn.value, false);
    case _ =>
  }

  /** A second write through the same handle replaces the first. */
  lemma {:induction false} SetRootTwice(v: Value, r1: Value, r2: Value)
    requires r1 != Invalid && !IsIndirect(r1)
    ensures SetRoot(SetRoot(v, r1), r2) == SetRoot(v, r2)
    decreases v
  {
    match v
    case PtrVal(_, _, target) =>
      if target.Some? { SetRootTwice(target.value, r1, r2); }
    case IfaceVal(n, dyn) =>
      if dyn.Some? { SetRootTwice(dyn.value, r1, r2); }
    case _ =>
  }
}

=== FILE: values.dfy ===
/** The value model that stands in for Go's `reflect` package: types, values,
    handles (a value plus its addressability), the sentinel errors, and the
    abstract type relations the accessors consult. */
module Values {

  datatype Option<+T> = None | Some(value: T)

  /** The six sentinel errors of the library. */
  datatype Error =
    | TypeInvalid
    | TypeUnmatched
    | NotFound
    | ValueUnaddressable
    | ValueUnsettable
    | IndexOutOfRange

  datatype Result<+T> = Ok(value: T) | Err(error: Error)

  /** A Go type, reduced to what the accessors inspect. Every type has a name:
      a defined type's (`type S []int` is named `S`), or `""` for a type literal
      such as `[]int`, so that type identity tells the two apart. A scalar type
      also records the basic kind underneath it. */
  datatype Type =
    | PtrType(name: string, elem: Type)
    | InterfaceType(name: string)
    | SliceType(name: string, elem: Type)
    | ArrayType(name: string, elem: Type, len: nat)
    | MapType(name: string, key: Type, elem: Type)
    | StructType(name: string, fields: seq<Field>)
    | ScalarType(name: string, basic: string)

  /** A struct field declaration. `tags` stands for the struct tag: the value
      stored under each tag key, as `reflect.StructTag.Lookup` would find it. */
  datatype Field = Field(name: string, exported: bool, embedded: bool, typ: Type, tags: map<string, string>)

  /** The coarse kind of a value, as `reflect.Value.Kind` reports it. */
  datatype Kind = InvalidKind | Pointer | Interface | Slice | Array | Map | Struct | Basic(basic: string)

  /** A runtime value, carrying the name of its type. `Invalid` is the zero
      `reflect.Value`. A pointer or an interface without payload is nil; so is a
      slice or map without items. The payload of a scalar is an abstract
      encoding in which 0 is the zero value. */
  datatype Value =
    | Invalid
    | PtrVal(name: string, elem: Type, target: Option<Value>)
    | IfaceVal(name: string, dyn: Option<Value>)
    | ScalarVal(name: string, basic: string, bits: int)
    | SliceVal(name: string, elem: Type, items: Option<seq<Value>>)
    | ArrayVal(name: string, elem: Type, elems: seq<Value>)
    | MapVal(name: string, key: Type, elem: Type, entries: Option<map<Value, Value>>)
    | StructVal(name: string, members: seq<Member>)

  /** A struct field: its declaration and its current value. */
  datatype Member = Member(decl: Field, val: Value)

  /** A `reflect.Value`: a value and whether it can be addressed (it was reached
      through a pointer, or is an element of a slice). */
  datatype Handle = Handle(val: Value, addressable: bool)

  /** The host type system's relations, left abstract: assignability,
      convertibility with its conversion, and interface satisfaction. */
  datatype Catalog = Catalog(
    assignable: (Type, Type) -> bool,
    convertible: (Type, Type) -> bool,
    convert: (Value, Type) -> Value,
    implements: (Type, Type) -> bool)

  /** Caller-owned storage designated by a handle. The setters write through
      the handle into it, the way Go writes through a pointer or into the
      shared backing store of a map or slice. */
  class Cell {
    var val: Value
    const addressable: bool

    constructor (v: Value, addressable: bool)
      ensures val == v && this.addressable == addressable
    {
      val := v;
      this.addressable := addressable;
    }
  }

  function Decls(ms: seq<Member>): (fs: seq<Field>)
    ensures |fs| == |ms|
    ensures forall i :: 0 <= i < |ms| ==> fs[i] == ms[i].decl
  {
    seq(|ms|, i requires 0 <= i < |ms| => ms[i].decl)
  }

  /** `v.Type()`, which Go refuses on an invalid value. */
  function TypeOf(v: Value): Type
    requires v != Invalid
  {
    match v
    case PtrVal(n, e, _) => PtrType(n, e)
    case IfaceVal(n, _) => InterfaceType(n)
    case ScalarVal(n, b, _) => ScalarType(n, b)
    case SliceVal(n, e, _) => SliceType(n, e)
    case ArrayVal(n, e, es) => ArrayType(n, e, |es|)
    case MapVal(n, k, e, _) => MapType(n, k, e)
    case StructVal(n, ms) => StructType(n, Decls(ms))
  }

  function KindOf(v: Value): Kind {
    match v
    case Invalid => InvalidKind
    case PtrVal(_, _, _) => Pointer
    case IfaceVal(_, _) => Interface
    case ScalarVal(_, b, _) => Basic(b)
    case SliceVal(_, _, _) => Slice
    case ArrayVal(_, _, _) => Array
    case MapVal(_, _, _, _) => Map
    case StructVal(_, _) => Struct
  }

  predicate IsIndirect(v: Value) {
    v.PtrVal? || v.IfaceVal?
  }

  /** An interface value holding nothing: what `x.Interface() == nil` detects. */
  predicate IsNilInterface(v: Value) {
    v.IfaceVal? && v.dyn.None?
  }

  /** The dynamic type carried by `v.Interface()`; None for a nil interface. */
  function DynType(v: Value): Option<Type>
    requires v != Invalid
  {
    match v
    case IfaceVal(_, dyn) => if dyn.None? || dyn.value == Invalid then None else Some(TypeOf(dyn.value))
    case _ => Some(TypeOf(v))
  }

  /** The value `v.Interface()` hands out: an interface yields its payload. */
  function Unbox(v: Value): Value {
    match v
    case IfaceVal(_, Some(x)) => x
    case _ => v
  }

  /** Whether a type assertion `x.(t)` succeeds for a value of dynamic type `dyn`. */
  predicate AssertsTo(c: Catalog, dyn: Option<Type>, t: Type) {
    dyn.Some? && (if t.InterfaceType? then c.implements(dyn.value, t) else dyn.value == t)
  }

  /** Two types share their underlying shape: the same constructor, and for
      arrays the same length, for structs the same number of fields, for
      scalars the same basic kind. */
  predicate SameShape(a: Type, b: Type) {
    match (a, b)
    case (PtrType(_, _), PtrType(_, _)) => true
    case (SliceType(_, _), SliceType(_, _)) => true
    case (ArrayType(_, _, n), ArrayType(_, _, l)) => n == l
    case (MapType(_, _, _), MapType(_, _, _)) => true
    case (StructType(_, fs), StructType(_, gs)) => |fs| == |gs|
    case (ScalarType(_, b), ScalarType(_, d)) => b == d
    case _ => false
  }

  /** A catalog that keeps Go's rule: a type is assignable to a distinct
      non-interface type only when their underlying types are identical, so the
      two share their shape. */
  ghost predicate Coherent(c: Catalog) {
    forall a, b :: c.assignable(a, b) && !b.InterfaceType? ==> SameShape(a, b)
  }

  /** The members `ms` under the declarations `fs`. */
  function WithDecls(ms: seq<Member>, fs: seq<Field>): (r: seq<Member>)
    requires |ms| == |fs|
    ensures Decls(r) == fs
    ensures |r| == |ms| && forall i :: 0 <= i < |ms| ==> r[i].val == ms[i].val
  {
    var r := seq(|ms|, i requires 0 <= i < |ms| => Member(fs[i], ms[i].val));
    assert Decls(r) == fs by {
      forall i | 0 <= i < |fs| ensures Decls(r)[i] == fs[i] { }
    }
    r
  }

  /** `x` given the type `t` of the non-interface slot it is stored in, as
      Go's `Value.assignTo` re-types it (its payload is kept); unchanged when
      the shapes differ, which a coherent catalog never lets through. */
  function Retype(x: Value, t: Type): (r: Value)
    ensures x != Invalid && SameShape(TypeOf(x), t) ==> r != Invalid && TypeOf(r) == t
    ensures KindOf(r) == KindOf(x)
  {
    match x
    case PtrVal(_, _, target) => if t.PtrType? then PtrVal(t.name, t.elem, target) else x
    case SliceVal(_, _, items) => if t.SliceType? then SliceVal(t.name, t.elem, items) else x
    case ArrayVal(_, _, es) => if t.ArrayType? && |es| == t.len then ArrayVal(t.name, t.elem, es) else x
    case MapVal(_, _, _, entries) => if t.MapType? then MapVal(t.name, t.key, t.elem, entries) else x
    case StructVal(_, ms) =>
      if t.StructType? && |ms| == |t.fields| then StructVal(t.name, WithDecls(ms, t.fields)) else x
    case ScalarVal(_, _, bits) => if t.ScalarType? && t.basic == x.basic then ScalarVal(t.name, t.basic, bits) else x
    case _ => x
  }

  /** The value stored when `x` is assigned to a slot of type `t`: an interface
      slot boxes it, any other slot re-types it to `t`. */
  function AssignTo(x: Value, t: Type): Value {
    if t.InterfaceType? then IfaceVal(t.name, Some(x)) else Retype(x, t)
  }

  /** The dynamic type a slot of type `slot` hands out after `x` was stored in
      it: `x`'s own type in an interface slot, the slot's type otherwise. */
  function HeldType(x: Value, slot: Type): Type
    requires x != Invalid
  {
    if slot.InterfaceType? then TypeOf(x) else slot
  }

  /** Storing a value the catalog lets through: the slot then hands out a value
      whose type is `HeldType` (the slot's own type for a non-interface slot),
      with the payload of `x`. */
  lemma AssignToRetypes(c: Catalog, x: Value, slot: Type)
    requires Coherent(c) && x != Invalid && !x.IfaceVal? && c.assignable(TypeOf(x), slot)
    ensures DynType(AssignTo(x, slot)) == Some(HeldType(x, slot))
    ensures slot.InterfaceType? ==> Unbox(AssignTo(x, slot)) == x
    ensures !slot.InterfaceType? ==> Unbox(AssignTo(x, slot)) == Retype(x, slot) && TypeOf(Retype(x, slot)) == slot
  {
  }

  /** An in-place write reported as `err` left `after` as `r` describes: the new
      value on success, the old one untouched on failure. */
  predicate Applied(r: Result<Value>, err: Option<Error>, before: Value, after: Value) {
    if r.Ok? then err.None? && after == r.value else err == Some(r.error) && after == before
  }

  /** `!v.IsValid() || v.IsZero()`. */
  predicate IsEmptyValue(v: Value) {
    match v
    case Invalid => true
    case PtrVal(_, _, t) => t.None?
    case IfaceVal(_, d) => d.None?
    case ScalarVal(_, _, bits) => bits == 0
    case SliceVal(_, _, items) => items.None?
    case ArrayVal(_, _, es) => forall i :: 0 <= i < |es| ==> IsEmptyValue(es[i])
    case MapVal(_, _, _, entries) => entries.None?
    case StructVal(_, ms) => forall i :: 0 <= i < |ms| ==> IsEmptyValue(ms[i].val)
  }
}
